=== FILE: README.md ===
# nftsets in Dafny

A model of the pure logic of nftsets, a registry of named NFT "Sets" (lists of
collections with their per-token metadata). Five parts are modelled, each with
the network, the disk, pydantic and randomness replaced by parameters or
nondeterministic choice:

- **Attribute validation** (`Records`): the `DisplayType` enum and the two root
  validators of `Attribute`, which follow the OpenSea metadata standard's
  display-type and maximum-value rules. The display-type check looks for the
  word "percentage" in `str(display_type)`. `str()` of a plain `Enum` member
  prints the class name and the upper-case member name (for example
  `DisplayType.BOOST_PERCENTATGE`), not the member's value
  `"boost_percentage"`. The lower-case word therefore never occurs, whatever
  the member's spelling, and every display type demands an integer value.
- **Metadata source normalisation** (`Resolution`): `expand_metadata` turns a
  URI template plus `total_supply`, or a per-token dict of URIs and inline
  records, into a per-token mapping. It back-fills `total_supply` when absent.
  `unpack_metadata_to_folder` names each token's file with a zero-padded id.
- **Rarity** (`Rarity`): `attribute_rarity` counts (trait, value) occurrences
  over the whole collection. `get_rarest_attribute` scans that table for a
  token's rarest attribute, starting from a `total_supply` sentinel.
- **Set registry** (`Registry`): the in-memory state of `Manager`, which is
  the installed sets by name plus a default name. It supports install,
  remove, set-default, sorted listing, lookup with default fallback, and
  collection queries by chain and symbol.
- **Creation helpers** (`Create`): `create_random_attributes` and
  `compile_metadata_from_sources`.

Support modules: `Wrappers` (`Option`, `Result`), `Text` (Python string
order, substring test, ASCII `lower`, sorted insertion) and `Decimal`
(`str(int)`, `str.zfill`, and the value of a digit string).

Python dicts, which keep insertion order, are sequences of key/value pairs
(`Records.TokenMap`). Where the code raises, the model returns a `Result`
error. `requests.get(...).json()` is a parameter `fetch: string ->
Option<J>`, `Metadata.parse_obj` is `parse: J -> Option<Metadata>`, and the
random draws are `:|` choices.

The model follows the code as written, including:

- Ties in `get_rarest_attribute` go to the trait that entered the rarity table
  first, which is its first appearance across the whole collection
  (nftsets/attributes.py:35, 47). The table's key order, unlike its counts,
  depends on the order of the tokens.
- The scan fails when no considered count is below `total_supply`, not only
  when the token has no tracked trait. It fails on an unknown token only when
  the table is non-empty, because the lookup sits inside the loop.
- Empty trait names are dropped along with `None` (nftsets/attributes.py:15).
- A negative `total_supply` is truthy, so a template with it expands to an
  empty mapping rather than being rejected (nftsets/typing.py:111-113).
- `DisplayType` has four members: `NUMBER`, `BOOST_NUMBER`,
  `BOOST_PERCENTATGE` and `DATE`.
- The `case_insensitive` flag is inverted: `True` selects the exact comparison
  (nftsets/manager.py:104-108).
- Fetches are sequential, and the first failure aborts resolution.
- Inline records are parsed again rather than passed through unchanged.
  `Resolution.ResolvedIsFixedPoint` shows this gives back the same records.

## Model

| member | source | states |
|---|---|---|
| Text.BelowIrreflexive | nftsets/manager.py:73 | no string sorts before itself under Python's code-point string order |
| Text.BelowTransitive | nftsets/manager.py:73 | Python's string order is transitive |
| Text.BelowTotal | nftsets/manager.py:73 | of two different strings, one sorts before the other |
| Text.Insert | nftsets/manager.py:73 | inserting a new string into an ascending list keeps it ascending, adds exactly that string, and grows it by one |
| Text.Lower | nftsets/manager.py:107 | `lower()` keeps the length, maps each character on its own, leaves no upper-case ASCII letter and changes nothing else |
| Decimal.NatStr | nftsets/typing.py:142 | `str` of a non-negative int is a non-empty digit string whose value is the number, with no leading zero: "0" for 0, otherwise a non-zero first digit |
| Decimal.IntStr | nftsets/typing.py:140-142 | `str` of an int starts with '-' iff it is negative; the digits after any sign denote its absolute value and have no leading zero (only 0 prints as "0") |
| Decimal.ZFill | nftsets/typing.py:142 | `zfill` leaves input of at least the width alone; shorter input gets exactly enough zeros to reach the width, placed after a leading sign |
| Decimal.ZFillDigits | nftsets/typing.py:142 | zero-padding a digit string keeps it digits only, as long as the larger of the width and itself, with the same value |
| Records.DisplayTypeStr | nftsets/typing.py:33-37 | `str()` of a member is "DisplayType." followed by the member's upper-case name, made of capitals and underscores only |
| Records.NoPercentageMember | nftsets/typing.py:58 | no printed `DisplayType` member (e.g. `DisplayType.BOOST_PERCENTATGE`) contains "percentage" |
| Records.MatchesDisplayType | nftsets/typing.py:55-68 | without a display type any value passes; with one, exactly the int values pass |
| Records.WithinMaxValue | nftsets/typing.py:70-77 | an unset `max_value` bounds nothing; a set one accepts exactly int values `<= max_value` (a string raises TypeError, reported as a failure) |
| Records.AttributeErrors | nftsets/typing.py:55-77 | both validators run; each error is reported exactly when its check fails |
| Records.ValidAttributeIff | nftsets/typing.py:55-77 | an attribute is valid iff both validators pass |
| Resolution.TemplateEntries | nftsets/typing.py:111-114 | a template with supply n gives, in order, entry i `base + "/" + str(i)`; its keys are distinct and exactly `0..n-1`, and looking up k gives k's URI; none for `n <= 0` |
| Resolution.LoadAll | nftsets/typing.py:116-126 | each value is resolved in order under its key; success iff every entry resolves; failure names the first failing key |
| Resolution.LoadEntryUses | nftsets/typing.py:119-124 | an inline record is parsed without any fetch; a URI entry depends only on what its fetch returns, and fails when the fetch fails |
| Resolution.Normalize | nftsets/typing.py:110-132 | missing key, template without a truthy supply, and unrecognised shapes fail; a dict passes as is; a template expands |
| Resolution.Expand | nftsets/typing.py:108-134 | resolved mapping keeps keys and order, with entries equal to fetch-then-parse or parse; supply back-filled only when the key is absent; a `null` supply fails once every entry resolves; other fields copied; otherwise the first failing entry is reported |
| Resolution.TemplateExpansion | nftsets/typing.py:111-129 | a template with supply n > 0 resolves to key set exactly `0..n-1`; entry i is the parse of what `base/i` serves; supply kept |
| Resolution.TemplateNeedsSupply | nftsets/typing.py:111-132 | a template whose supply is absent, `null` or zero, and a non-string non-dict source, are rejected with "Cannot expand metadata" |
| Resolution.DictKeysKept | nftsets/typing.py:116-129 | a dict source keeps its key set and distinctness; an absent supply is back-filled with the entry count, a given one is kept unchanged |
| Resolution.NullSupplyNotBackFilled | nftsets/typing.py:128-129 | a dict that resolves with its entry count as supply when the key is absent is rejected when the key holds `null` |
| Resolution.ResolvedIsFixedPoint | nftsets/typing.py:116-126 | resolving inline records that parse back to themselves returns exactly those records |
| Resolution.FailureNamesFirstToken | nftsets/typing.py:111-124 | when token j of a template is the first whose fetch-and-parse fails, the whole resolution fails naming j |
| Resolution.Width | nftsets/typing.py:140 | the width is exactly `len(str(total_supply - 1))`: the digits of the largest id for a positive supply, and a minus sign plus the digits of `1 - total_supply` otherwise (2 for a supply of 0); no id below a positive supply prints longer |
| Resolution.ZeroSupplyFileName | nftsets/typing.py:140-143 | with a supply of 0, which a dict source may carry, token 5 is written to "05.json" |
| Resolution.Stem | nftsets/typing.py:140-142 | a non-negative id is padded to the larger of the width and its own length, with digits only, denoting the id |
| Resolution.FileName | nftsets/typing.py:142-143 | a file name ends in ".json", and for a non-negative id the part before it denotes the id |
| Resolution.FileNamesDistinct | nftsets/typing.py:140-143 | distinct non-negative ids get distinct file names |
| Resolution.FileNamesSameLength | nftsets/typing.py:140-143 | all ids below the supply get file names of one length |
| Resolution.FileNamesSorted | nftsets/typing.py:140-143 | for ids below the supply, file names sort in id order |
| Resolution.Unpack | nftsets/typing.py:140-143 | one file per mapping entry, in order, holding that entry's metadata; a non-negative id is recovered from its name; with distinct non-negative ids no file overwrites another |
| Rarity.FirstIndex | nftsets/attributes.py:37-41 | position of the first attribute with the trait; positions before it lack the trait; the list length iff the trait is absent |
| Rarity.FirstWithTrait | nftsets/attributes.py:37-44 | the token's first attribute of that trait, present iff the token has the trait |
| Rarity.BumpEffect | nftsets/attributes.py:16-24 | one step adds one to the counter of (trait, value), starting it at 1, changes no other counter, and appends a new trait to the order |
| Rarity.Tally | nftsets/attributes.py:10-24 | the table order lists each key once and nothing else, and every count is at least 1 |
| Rarity.TallyKeys | nftsets/attributes.py:12-24 | a trait is a key iff it is not skipped, is non-empty, and occurs |
| Rarity.TallyCounts | nftsets/attributes.py:16-24 | a value has a counter iff it occurs with the trait, and the counter equals its number of occurrences (repeats count) |
| Rarity.TallyOrder | nftsets/attributes.py:16-24 | table order is the order in which traits first appear across the collection |
| Rarity.TallyMeaning | nftsets/attributes.py:10-24 | keys, counter presence and counts, for all traits and values at once |
| Rarity.AttributeRarity | nftsets/attributes.py:6-26 | keys are exactly the tracked traits that occur; every count equals the (token, attribute) occurrences and so is at least 1; order is first appearance |
| Rarity.EmptySkipIsNoSkip | nftsets/attributes.py:12-13 | an empty skip list gives the same table as none |
| Rarity.OccurrencesAppend | nftsets/attributes.py:10-11 | counts over two blocks of attributes add up, and swapping the two blocks keeps them |
| Rarity.CountsIgnoreTokenOrder | nftsets/attributes.py:10-24 | any rearrangement of the collection's tokens gives every (trait, value) the same count |
| Rarity.RarityCoversToken | nftsets/attributes.py:35-46 | for any token, every table trait the token has has a counter for the token's value, so the scan's lookups succeed |
| Rarity.Scan | nftsets/attributes.py:33-52 | unknown token fails iff the table is non-empty; success returns the first attribute of the earliest trait with the least count below the sentinel; failure means no count is below it |
| Rarity.RarestAttribute | nftsets/attributes.py:29-52 | as `Scan` on the collection's table; the returned count is the attribute's occurrences in the whole collection |
| Rarity.RarestUnique | nftsets/attributes.py:47-49 | at most one attribute and count meet the scan's outcome |
| Rarity.TieGoesToTableOrder | nftsets/attributes.py:35-49 | with equal counts, the trait first in the table wins although the token lists the other first |
| Registry.Install | nftsets/manager.py:33-49 | the set is filed under its name, replacing any old entry; other entries and the default are unchanged; the name is returned |
| Registry.Remove | nftsets/manager.py:51-60 | unknown names fail; otherwise exactly that entry goes, and the default is cleared iff it named the set |
| Registry.SetDefault | nftsets/manager.py:62-70 | unknown names fail; otherwise the default becomes the name and the sets are unchanged |
| Registry.Available | nftsets/manager.py:72-73 | the installed names, each once, in ascending string order |
| Registry.Resolve | nftsets/manager.py:75-80 | a non-empty name is used as given; an empty or missing one falls back to the default, failing iff it is unset |
| Registry.Get | nftsets/manager.py:75-85 | the set under the resolved name, or the matching error; under the registry invariant its name is that name |
| Registry.Filter | nftsets/manager.py:93 | keeps exactly the passing elements, in their original order, as many as pass |
| Registry.FilterTwice | nftsets/manager.py:103-105 | filtering by chain then by symbol is one filter by both |
| Registry.FilterNone | nftsets/manager.py:111 | no match iff no element passes |
| Registry.FilterMany | nftsets/manager.py:116 | two or more matches iff two positions pass |
| Registry.GetCollections | nftsets/manager.py:87-93 | exactly the set's collections on the chain, in their order, as many as are on the chain |
| Registry.SymbolMatches | nftsets/manager.py:104-108 | with the flag true, exact equality; with it false, equal length and equal characters after ASCII lower-casing; an identical symbol always matches |
| Registry.SelectionCount | nftsets/manager.py:102-122 | the two-stage filter matches nothing, several, or one element iff that many collections are on the chain with a matching symbol |
| Registry.GetCollectionInfo | nftsets/manager.py:95-122 | fails iff there are zero or several matches, otherwise returns a collection on the chain with the matching symbol |
| Registry.CaseFlagInverted | nftsets/manager.py:104-108 | with the flag true "PUNK" does not match "punk"; with it false it does |
| Registry.InstallThenGet | nftsets/manager.py:33-85 | a set just installed is what `get` returns under its name |
| Registry.InstallThenRemove | nftsets/manager.py:33-60 | installing a new non-default set and removing it restores the registry |
| Registry.SetDefaultThenGet | nftsets/manager.py:62-85 | after `set_default`, `get()` returns that set, unless the name is empty, which `get` treats as unset |
| Registry.RemoveThenGet | nftsets/manager.py:51-85 | a removed set is unknown to `get` |
| Create.CreateRandomAttributes | nftsets/create.py:8-38 | one attribute per choice, in order, trait = key; int ranges give a value in `[min, max)` with NUMBER and `max_value` = max; lists give a member with neither; the first empty selection fails |
| Create.DrawnAttributesValid | nftsets/create.py:30-34 | every created attribute passes both validators |
| Create.SingletonRange | nftsets/create.py:21-34 | a one-value range determines the attribute completely |
| Create.Enumerate | nftsets/create.py:51 | `enumerate` pairs source i with token id i: the keys are distinct and exactly `0..n-1`, and looking up k gives source k |
| Create.CompileMetadata | nftsets/create.py:41-52 | success iff every source is read and its metadata parses; entry i is `(i, parse(get_metadata(files[i])))`; failure names the first index whose read or parse fails |
| Create.CompiledKeys | nftsets/create.py:49-52 | compiled keys are distinct and exactly `0..n-1` |

## Left out

- The command line (nftsets/_cli.py), terminal output and regex symbol search: these are outside the pure logic.
- Disk effects: the cache folder, loading sets at start-up, and the `.json` and `.default` files. `Manager` starts from a given state.
- `requests.get` in `install`: `Registry.Install` takes the already-parsed set.
- HTTP and JSON decoding in `expand_metadata`: these are the `fetch` parameter. `Metadata.parse_obj` is the `parse` parameter.
- pydantic details: type coercion other than that of attribute values below (e.g. string dict keys turned into ints, a non-int `total_supply`), `AnyUrl` checks, JSON output, `exclude_unset`, ISO timestamps, and the misspelled `froze` config. Timestamps and URIs are plain strings.
- Floats: `random.uniform`, float values and bounds, and `1 == 1.0` key collapsing. Values are `Str | Int`, so the float branch of the display-type check is always false.
- Create.CreateRandomAttributes: float ranges, mixed int/float tuples, tuples of strings and a bare string as the selection are not modelled. A tuple always takes the range branch: a pair that is not two ints or two floats (two strings included) leaves `value` unbound or stale from an earlier trait, and a tuple of any other length raises ValueError when unpacked.
- Records.MatchesDisplayType: pydantic v1 validates `value: Union[str, int, float]` (nftsets/typing.py:19, 51) trying `str` first, and `str` accepts an int by converting it, so the code as written stores every int value as its decimal string. It therefore rejects every attribute with a display type. The model keeps values as `Str | Int` without that coercion.
- Records.WithinMaxValue: for the same reason, the code as written rejects every attribute with a `max_value`, because comparing the stored string with the int bound raises TypeError. The model compares the int value.
- Create.CreateRandomAttributes: with that coercion the code returns attributes whose int value has become `str(v)`. The model returns the int.
- Rarity.AttributeRarity: the same coercion merges values in the code that the model keeps apart. JSON `5` and `"5"` under one trait are both stored as `"5"` and share one counter (nftsets/attributes.py:17-21), while the model counts `Int(5)` and `Str("5")` separately. So counts, and with them the outcome of `Rarity.RarestAttribute`, can differ. For example, with two tokens whose `level` is `5` and `"5"` and a `total_supply` of 2, the code counts `{"5": 2}` and raises, whereas the model counts 1 each and returns an attribute.
- Create.DrawnAttributesValid: holds for the model's int values; the code's string-coerced attributes, with NUMBER and a `max_value` set, would fail both validators if validated again.
- Text.Lower: Unicode `str.lower()` is modelled over ASCII letters only.
- Rarity.RarestAttribute: the test `attr.trait_type is trait_name` is modelled as string equality, the evident intent, not what the code computes. `is` compares object identity, and JSON-decoded strings are not interned, so it is usually true only for the very string the table key came from; the code as written then skips the trait for most tokens and typically raises.
- Failure payloads: the token id in `Resolution.ExpandError.EntryFailed` and the failing index returned by `Resolution.LoadAll` and `Create.CompileMetadata` are the model's own addition. The Python exceptions (a request, JSON or validation error) do not carry the id. This bears on `Resolution.LoadAll`, `Resolution.Expand`, `Resolution.FailureNamesFirstToken` and `Create.CompileMetadata`.
- Registry.Remove: its frame is stated only for registries where every set is filed under its own name. The code deletes the entry under the set's own name, which is the looked-up key only in that case.
- Registry.Remove: the KeyError for an unknown name and the ValueError of `get` and `set_default` share one error constructor.
- Concurrency: the code fetches sequentially, so there is none to model.
- Random draws are nondeterministic choices. No distribution is modelled.

=== FILE: create.dfy ===
/** Building attributes and metadata for a new collection (nftsets/create.py).
    Random draws are nondeterministic choices; the metadata source reader and
    the parser are parameters. */
module Create {
  import opened Wrappers
  import opened Records
  import opened Resolution

  /** What a trait may take: an integer range `(min, max)` drawn with
      `randrange`, or a list of strings drawn with `choice`. */
  datatype Selection = IntRange(lo: int, hi: int) | Choice(options: seq<string>)

  datatype CreateError =
    | EmptyRange(traitName: string)    // `randrange` raises ValueError when max <= min
    | EmptyChoice(traitName: string)   // `choice` raises IndexError on an empty list

  /** The attributes one draw may produce for the choices, in order. */
  predicate Drawn(choices: seq<(string, Selection)>, attrs: seq<Attribute>)
  {
    |attrs| == |choices| &&
    forall i :: 0 <= i < |choices| ==> DrawnFor(choices[i], attrs[i])
  }

  predicate DrawnFor(choice: (string, Selection), a: Attribute)
  {
    a.traitType == Some(choice.0) &&
    match choice.1
    case IntRange(lo, hi) =>
      a.value.Int? && lo <= a.value.i < hi && a.displayType == Some(Number) && a.maxValue == Some(hi)
    case Choice(options) =>
      a.value.Str? && a.value.s in options && a.displayType.None? && a.maxValue.None?
  }

  /** A selection that cannot be drawn from. */
  predicate Empty(sel: Selection)
  {
    match sel
    case IntRange(lo, hi) => hi <= lo
    case Choice(options) => |options| == 0
  }

  function ErrorFor(choice: (string, Selection)): (e: CreateError)
    requires Empty(choice.1)
  {
    if choice.1.IntRange? then EmptyRange(choice.0) else EmptyChoice(choice.0)
  }

  /** `create_random_attributes`: one attribute per choice, in order, each
      drawn from its selection; the first selection that cannot be drawn
      from raises. */
  method CreateRandomAttributes(choices: seq<(string, Selection)>) returns (r: Result<seq<Attribute>, CreateError>)
    ensures r.Ok? <==> forall i :: 0 <= i < |choices| ==> !Empty(choices[i].1)
    ensures r.Ok? ==> Drawn(choices, r.value)
    ensures r.Err? ==> exists k :: 0 <= k < |choices| && Empty(choices[k].1) && r.error == ErrorFor(choices[k])
                                   && forall j :: 0 <= j < k ==> !Empty(choices[j].1)
  {
    var attrs: seq<Attribute> := [];
    var i := 0;
    while i < |choices|
      invariant 0 <= i <= |choices|
      invariant |attrs| == i
      invariant forall j :: 0 <= j < i ==> !Empty(choices[j].1) && DrawnFor(choices[j], attrs[j])
    {
      var (name, selection) := choices[i];
      var a: Attribute;
      match selection {
        case IntRange(lo, hi) =>
          if hi <= lo {
            return Err(EmptyRange(name));
          }
          var v :| lo <= v < hi;
          a := Attribute(Some(name), None, Int(v), None);
          a := a.(maxValue := Some(hi), displayType := Some(Number));
        case Choice(options) =>
          if |options| == 0 {
            return Err(EmptyChoice(name));
          }
          var k :| 0 <= k < |options|;
          a := Attribute(Some(name), None, Str(options[k]), None);
      }
      attrs := attrs + [a];
      i := i + 1;
    }
    return Ok(attrs);
  }

  /** Every drawn attribute passes both validators: an int is below its
      maximum and carries NUMBER, a string carries neither field. */
  lemma {:induction false} DrawnAttributesValid(choices: seq<(string, Selection)>, attrs: seq<Attribute>)
    requires Drawn(choices, attrs)
    ensures forall i :: 0 <= i < |attrs| ==> ValidAttribute(attrs[i])
  {
    forall i | 0 <= i < |attrs| ensures ValidAttribute(attrs[i]) {
      assert DrawnFor(choices[i], attrs[i]);
      ValidAttributeIff(attrs[i]);
    }
  }

  /** A fixed range draws one value: the attribute is determined. */
  lemma SingletonRange(name: string, lo: int, a: Attribute)
    requires DrawnFor((name, IntRange(lo, lo + 1)), a)
    ensures a == Attribute(Some(name), Some(Number), Int(lo), Some(lo + 1))
  {
  }

  /** The entries `compile_metadata_from_sources` enumerates: the i-th source
      under token id i. */
  function Enumerate<P>(files: seq<P>): (r: TokenMap<P>)
    ensures |r| == |files|
    ensures forall i :: 0 <= i < |r| ==> r[i] == (i, files[i])
    ensures DistinctKeys(r)
    ensures forall k :: k in Keys(r) <==> 0 <= k < |files|
    ensures forall k :: 0 <= k < |files| ==> Lookup(r, k) == Some(files[k])
  {
    var r := seq(|files|, i requires 0 <= i < |files| => (i, files[i]));
    CountingKeys(r);
    r
  }

  /** One source as the comprehension handles it: `get_metadata_fn` reads
      it, then `Metadata.parse_obj` validates the result; either may raise. */
  function ReadSource<P, J>(getMetadata: P -> Option<J>, parse: J -> Option<Metadata>, f: P): Option<Metadata>
  {
    match getMetadata(f)
    case None => None
    case Some(j) => parse(j)
  }

  /** `compile_metadata_from_sources`: token ids `0..n-1` in source order,
      entry i the parsed metadata of source i; the first source that cannot
      be read, or whose metadata does not parse, fails the whole call. */
  function CompileMetadata<P, J>(files: seq<P>, getMetadata: P -> Option<J>, parse: J -> Option<Metadata>)
    : (r: Result<TokenMap<Metadata>, TokenId>)
    ensures r.Ok? <==> forall i :: 0 <= i < |files| ==>
                        getMetadata(files[i]).Some? && parse(getMetadata(files[i]).value).Some?
    ensures r.Ok? ==> |r.value| == |files|
                      && forall i :: 0 <= i < |files| ==> r.value[i] == (i, parse(getMetadata(files[i]).value).value)
    ensures r.Err? ==> 0 <= r.error < |files|
                       && (getMetadata(files[r.error]).None? || parse(getMetadata(files[r.error]).value).None?)
                       && forall j :: 0 <= j < r.error ==>
                            getMetadata(files[j]).Some? && parse(getMetadata(files[j]).value).Some?
  {
    LoadAll(Enumerate(files), (f: P) => ReadSource(getMetadata, parse, f))
  }

  /** The compiled keys are exactly `0..n-1`, each once. */
  lemma CompiledKeys<P, J>(files: seq<P>, getMetadata: P -> Option<J>, parse: J -> Option<Metadata>)
    requires CompileMetadata(files, getMetadata, parse).Ok?
    ensures var m := CompileMetadata(files, getMetadata, parse).value;
      && DistinctKeys(m)
      && forall k :: k in Keys(m) <==> 0 <= k < |files|
  {
    var m := CompileMetadata(files, getMetadata, parse).value;
    forall k | 0 <= k < |files| ensures k in Keys(m) {
      assert m[k].0 == k;
    }
  }
}

=== FILE: decimal.dfy ===
/** Decimal text of integers: Python's `str(int)`, `str.zfill`, and the value
    a string of digits denotes (leading zeros ignored). */
module Decimal {
  import opened Text

  predicate IsDigit(c: char)
  {
    '0' <= c <= '9'
  }

  predicate AllDigits(s: string)
  {
    forall i :: 0 <= i < |s| ==> IsDigit(s[i])
  }

  function Digit(d: nat): (c: char)
    requires d < 10
    ensures IsDigit(c)
  {
    ('0' as int + d) as char
  }

  function DigitValue(c: char): nat
    requires IsDigit(c)
  {
    c as int - '0' as int
  }

  /** Python's `str(n)` for a natural number: no leading zero unless
      `n == 0`, and the digits denote `n`. */
  function NatStr(n: nat): (r: string)
    ensures |r| >= 1 && AllDigits(r)
    ensures n > 0 ==> r[0] != '0'
    ensures n == 0 ==> r == "0"
    ensures DigitsValue(r) == n
  {
    if n < 10 then [Digit(n)]
    else
      var r := NatStr(n / 10) + [Digit(n % 10)];
      assert r[..|r| - 1] == NatStr(n / 10);
      r
  }

  /** Python's `str(i)` for any integer: a minus sign exactly for negative
      numbers, followed by the digits of the magnitude. */
  function IntStr(i: int): (r: string)
    ensures |r| >= 1
    ensures i < 0 <==> r[0] == '-'
    ensures i >= 0 ==> AllDigits(r) && DigitsValue(r) == i
    ensures i < 0 ==> |r| >= 2 && AllDigits(r[1..]) && DigitsValue(r[1..]) == -i
    ensures i >= 0 && r[0] == '0' ==> r == "0"
    ensures i < 0 ==> r[1] != '0'
  {
    if i < 0 then
      var r := "-" + NatStr(-i);
      assert r[1..] == NatStr(-i);
      r
    else NatStr(i)
  }

  /** The number a string of decimal digits denotes. */
  function DigitsValue(s: string): nat
    requires AllDigits(s)
  {
    if |s| == 0 then 0 else DigitsValue(s[..|s| - 1]) * 10 + DigitValue(s[|s| - 1])
  }

  /** `str` never writes more digits for a smaller number. */
  lemma {:induction false} NatStrLengthMonotone(a: nat, b: nat)
    requires a <= b
    ensures |NatStr(a)| <= |NatStr(b)|
  {
    if a >= 10 {
      NatStrLengthMonotone(a / 10, b / 10);
    }
  }

  function Zeros(k: nat): (r: string)
    ensures |r| == k && AllDigits(r)
    ensures forall i :: 0 <= i < k ==> r[i] == '0'
  {
    seq(k, _ => '0')
  }

  /** Python's `s.zfill(width)`: left-pad with '0' to `width`, keeping a
      leading sign in front of the padding; never shortens `s`. */
  function ZFill(s: string, width: int): (r: string)
    ensures |s| >= width ==> r == s
    ensures |s| < width ==> |r| == width
    ensures |s| < width && (|s| == 0 || (s[0] != '+' && s[0] != '-')) ==> r == Zeros(width - |s|) + s
    ensures |s| < width && |s| > 0 && (s[0] == '+' || s[0] == '-') ==> r == [s[0]] + Zeros(width - |s|) + s[1..]
  {
    if |s| >= width then s
    else if |s| > 0 && (s[0] == '+' || s[0] == '-') then [s[0]] + Zeros(width - |s|) + s[1..]
    else Zeros(width - |s|) + s
  }

  /** Padding a digit string keeps it digits only, of the larger of the two
      lengths, with the same value. */
  lemma ZFillDigits(s: string, width: int)
    requires |s| >= 1 && AllDigits(s)
    ensures |ZFill(s, width)| == (if width > |s| then width else |s|)
    ensures AllDigits(ZFill(s, width)) && DigitsValue(ZFill(s, width)) == DigitsValue(s)
  {
    assert IsDigit(s[0]);
    if |s| >= width {
      assert ZFill(s, width) == Zeros(0) + s;
      ValueLeadingZeros(0, s);
    } else {
      ValueLeadingZeros(width - |s|, s);
    }
  }

  /** Leading zeros do not change the value of a digit string. */
  lemma {:induction false} ValueLeadingZeros(k: nat, s: string)
    requires AllDigits(s)
    ensures AllDigits(Zeros(k) + s)
    ensures DigitsValue(Zeros(k) + s) == DigitsValue(s)
  {
    var z := Zeros(k) + s;
    if |s| == 0 {
      assert z == Zeros(k);
      ZerosValue(k);
    } else {
      assert z[..|z| - 1] == Zeros(k) + s[..|s| - 1];
      ValueLeadingZeros(k, s[..|s| - 1]);
    }
  }

  lemma {:induction false} ZerosValue(k: nat)
    ensures DigitsValue(Zeros(k)) == 0
  {
    if k > 0 {
      assert Zeros(k)[..k - 1] == Zeros(k - 1);
      ZerosValue(k - 1);
    }
  }

  /** For digit strings of one length, string order is numeric order and
      equal values mean equal strings. */
  lemma {:induction false} DigitsOrder(a: string, b: string)
    requires AllDigits(a) && AllDigits(b) && |a| == |b|
    ensures Below(a, b) <==> DigitsValue(a) < DigitsValue(b)
    ensures a == b <==> DigitsValue(a) == DigitsValue(b)
  {
    if |a| == 0 {
    } else {
      var n := |a| - 1;
      var a', b' := a[..n], b[..n];
      assert a == a' + [a[n]] && b == b' + [b[n]];
      DigitsOrder(a', b');
      BelowSnoc(a', b', a[n], b[n]);
    }
  }
}

=== FILE: rarity.dfy ===
/** The rarity engine of nftsets/attributes.py: a frequency table of
    attribute values per trait (`attribute_rarity`) and the arg-min over one
    token's attributes (`get_rarest_attribute`).

    The table is a map plus the order in which its trait keys were first
    inserted, since the arg-min walks the keys in that order. */
module Rarity {
  import opened Wrappers
  import opened Records

  datatype Table = Table(order: seq<string>, counts: map<string, map<Value, nat>>)

  /** Keys in `order` once each, exactly the keys of `counts`, every count positive. */
  ghost predicate WellFormed(t: Table)
  {
    && (forall i, j :: 0 <= i < j < |t.order| ==> t.order[i] != t.order[j])
    && (forall k :: k in t.counts <==> k in t.order)
    && (forall k, v :: k in t.counts && v in t.counts[k] ==> t.counts[k][v] >= 1)
  }

  /** `skip_traits and trait_type in skip_traits`: a `None` or empty list skips nothing. */
  predicate SkippedTrait(skip: Option<seq<string>>, t: string)
  {
    skip.Some? && |skip.value| > 0 && t in skip.value
  }

  /** A trait name that can key the table: not skipped, and truthy (non-empty). */
  predicate TrackedTrait(t: string, skip: Option<seq<string>>)
  {
    !SkippedTrait(skip, t) && t != ""
  }

  /** Whether one attribute is counted; a `None` trait type is never skipped
      but fails the truthiness test. */
  predicate Tracked(a: Attribute, skip: Option<seq<string>>)
  {
    a.traitType.Some? && TrackedTrait(a.traitType.value, skip)
  }

  /** Every attribute of the collection, token by token in dict order. */
  function Flatten(ms: TokenMap<Metadata>): seq<Attribute>
  {
    if |ms| == 0 then [] else Flatten(ms[..|ms| - 1]) + ms[|ms| - 1].1.attributes
  }

  /** The independent reference count: how many attributes carry this trait
      and value, each repeat counted. */
  function Occurrences(attrs: seq<Attribute>, t: string, v: Value): nat
  {
    if |attrs| == 0 then 0
    else
      var a := attrs[|attrs| - 1];
      Occurrences(attrs[..|attrs| - 1], t, v) + (if a.traitType == Some(t) && a.value == v then 1 else 0)
  }

  predicate HasTrait(attrs: seq<Attribute>, t: string)
  {
    exists i :: 0 <= i < |attrs| && attrs[i].traitType == Some(t)
  }

  /** Index of the first attribute with trait `t`, or `|attrs|` if there is none. */
  function FirstIndex(attrs: seq<Attribute>, t: string): (k: nat)
    ensures k <= |attrs|
    ensures k < |attrs| <==> HasTrait(attrs, t)
    ensures k < |attrs| ==> attrs[k].traitType == Some(t)
    ensures forall j :: 0 <= j < k ==> attrs[j].traitType != Some(t)
  {
    if |attrs| == 0 then 0
    else
      var p := attrs[..|attrs| - 1];
      var f := FirstIndex(p, t);
      assert forall j :: 0 <= j < |p| ==> attrs[j] == p[j];
      if f < |p| then f
      else if attrs[|attrs| - 1].traitType == Some(t) then |p|
      else |attrs|
  }

  /** `next(attr for attr in attributes if attr.trait_type is t)`, with the
      identity test read as equality. */
  function FirstWithTrait(attrs: seq<Attribute>, t: string): (r: Option<Attribute>)
    ensures r.Some? <==> HasTrait(attrs, t)
    ensures r.Some? ==> r.value == attrs[FirstIndex(attrs, t)] && r.value.traitType == Some(t)
  {
    var k := FirstIndex(attrs, t);
    if k < |attrs| then Some(attrs[k]) else None
  }

  /** One pass of the innermost branch of `attribute_rarity`: bump, start, or
      create the counter. */
  function Bump(t: Table, name: string, v: Value): Table
  {
    if name in t.counts then
      var inner := t.counts[name];
      if v in inner then Table(t.order, t.counts[name := inner[v := inner[v] + 1]])
      else Table(t.order, t.counts[name := inner[v := 1]])
    else Table(t.order + [name], t.counts[name := map[v := 1]])
  }

  /** A bump counts one more for `(name, v)`, keeps every other count, and
      appends a new trait to the order. */
  lemma BumpEffect(t: Table, name: string, v: Value)
    ensures var r := Bump(t, name, v);
      && r.order == (if name in t.counts then t.order else t.order + [name])
      && r.counts.Keys == t.counts.Keys + {name}
      && (forall k :: k in t.counts && k != name ==> r.counts[k] == t.counts[k])
      && v in r.counts[name]
      && r.counts[name][v] == 1 + (if name in t.counts && v in t.counts[name] then t.counts[name][v] else 0)
      && (forall w :: w != v ==> (w in r.counts[name] <==> name in t.counts && w in t.counts[name]))
      && (forall w :: w != v && w in r.counts[name] ==> r.counts[name][w] == t.counts[name][w])
  {
  }

  /** Bumping a counter keeps the table well formed. */
  lemma BumpWellFormed(t: Table, name: string, v: Value)
    requires WellFormed(t)
    ensures WellFormed(Bump(t, name, v))
  {
    if name !in t.counts {
      assert name !in t.order;
    }
  }

  /** The counting loop over a flat run of attributes. */
  function Tally(attrs: seq<Attribute>, skip: Option<seq<string>>): (t: Table)
    ensures WellFormed(t)
  {
    if |attrs| == 0 then Table([], map[])
    else
      var prev := Tally(attrs[..|attrs| - 1], skip);
      var a := attrs[|attrs| - 1];
      if Tracked(a, skip) then
        BumpWellFormed(prev, a.traitType.value, a.value);
        Bump(prev, a.traitType.value, a.value)
      else prev
  }

  lemma {:induction false} HasTraitSnoc(p: seq<Attribute>, a: Attribute, t: string)
    ensures HasTrait(p + [a], t) <==> HasTrait(p, t) || a.traitType == Some(t)
  {
    var attrs := p + [a];
    assert forall i :: 0 <= i < |p| ==> attrs[i] == p[i];
    if a.traitType == Some(t) {
      assert attrs[|p|] == a;
    }
  }

  lemma {:induction false} NoTraitNoOccurrences(attrs: seq<Attribute>, t: string, v: Value)
    requires !HasTrait(attrs, t)
    ensures Occurrences(attrs, t, v) == 0
  {
    if |attrs| > 0 {
      var p := attrs[..|attrs| - 1];
      assert attrs == p + [attrs[|attrs| - 1]];
      HasTraitSnoc(p, attrs[|attrs| - 1], t);
      NoTraitNoOccurrences(p, t, v);
    }
  }

  /** The table has a key exactly for each tracked trait that occurs. */
  lemma {:induction false} TallyKeys(attrs: seq<Attribute>, skip: Option<seq<string>>, t: string)
    ensures t in Tally(attrs, skip).counts <==> TrackedTrait(t, skip) && HasTrait(attrs, t)
  {
    if |attrs| > 0 {
      var p := attrs[..|attrs| - 1];
      var a := attrs[|attrs| - 1];
      assert attrs == p + [a];
      TallyKeys(p, skip, t);
      HasTraitSnoc(p, a, t);
    }
  }

  /** Each counter of a trait in the table equals the reference count; values
      that never occur with that trait have no counter. */
  lemma {:induction false} TallyCounts(attrs: seq<Attribute>, skip: Option<seq<string>>, t: string, v: Value)
    requires t in Tally(attrs, skip).counts
    ensures v in Tally(attrs, skip).counts[t] <==> Occurrences(attrs, t, v) > 0
    ensures v in Tally(attrs, skip).counts[t] ==> Tally(attrs, skip).counts[t][v] == Occurrences(attrs, t, v)
  {
    var p := attrs[..|attrs| - 1];
    var a := attrs[|attrs| - 1];
    var prev := Tally(p, skip);
    TallyKeys(attrs, skip, t);
    TallyKeys(p, skip, t);
    assert attrs == p + [a];
    HasTraitSnoc(p, a, t);
    if t in prev.counts {
      TallyCounts(p, skip, t, v);
    } else {
      NoTraitNoOccurrences(p, t, v);
    }
  }

  /** Keys enter the order in the order of their first appearance. */
  lemma {:induction false} TallyOrder(attrs: seq<Attribute>, skip: Option<seq<string>>)
    ensures forall i, j :: 0 <= i < j < |Tally(attrs, skip).order| ==>
      FirstIndex(attrs, Tally(attrs, skip).order[i]) < FirstIndex(attrs, Tally(attrs, skip).order[j])
  {
    if |attrs| > 0 {
      var p := attrs[..|attrs| - 1];
      var a := attrs[|attrs| - 1];
      var prev := Tally(p, skip);
      var order := Tally(attrs, skip).order;
      TallyOrder(p, skip);
      assert forall j :: 0 <= j < |p| ==> attrs[j] == p[j];
      forall k | k in prev.order
        ensures FirstIndex(attrs, k) == FirstIndex(p, k) < |p|
      {
        TallyKeys(p, skip, k);
      }
      if Tracked(a, skip) && a.traitType.value !in prev.counts {
        var n := a.traitType.value;
        TallyKeys(p, skip, n);
        assert order == prev.order + [n];
        assert FirstIndex(attrs, n) == |p|;
        forall i, j | 0 <= i < j < |order|
          ensures FirstIndex(attrs, order[i]) < FirstIndex(attrs, order[j])
        {
          assert order[i] in prev.order;
          if j < |prev.order| { assert order[j] in prev.order; }
        }
      } else {
        assert order == prev.order;
        forall i, j | 0 <= i < j < |order|
          ensures FirstIndex(attrs, order[i]) < FirstIndex(attrs, order[j])
        {
          assert order[i] in prev.order && order[j] in prev.order;
          assert FirstIndex(p, prev.order[i]) < FirstIndex(p, prev.order[j]);
        }
      }
    }
  }

  /** Keys and counters of a tally, quantified over every trait and value. */
  lemma TallyMeaning(attrs: seq<Attribute>, skip: Option<seq<string>>)
    ensures forall k :: k in Tally(attrs, skip).counts <==> TrackedTrait(k, skip) && HasTrait(attrs, k)
    ensures forall k, v :: k in Tally(attrs, skip).counts ==>
      (v in Tally(attrs, skip).counts[k] <==> Occurrences(attrs, k, v) > 0)
    ensures forall k, v :: k in Tally(attrs, skip).counts && v in Tally(attrs, skip).counts[k] ==>
      Tally(attrs, skip).counts[k][v] == Occurrences(attrs, k, v)
  {
    forall k
      ensures k in Tally(attrs, skip).counts <==> TrackedTrait(k, skip) && HasTrait(attrs, k)
    {
      TallyKeys(attrs, skip, k);
    }
    forall k, v | k in Tally(attrs, skip).counts
      ensures v in Tally(attrs, skip).counts[k] <==> Occurrences(attrs, k, v) > 0
      ensures v in Tally(attrs, skip).counts[k] ==> Tally(attrs, skip).counts[k][v] == Occurrences(attrs, k, v)
    {
      TallyCounts(attrs, skip, k, v);
    }
  }

  /** `attribute_rarity`: the trait keys are exactly the tracked traits that
      occur, in first-appearance order across the collection, and each
      counter is the number of occurrences of that trait and value. */
  function AttributeRarity(c: CollectionInfo, skip: Option<seq<string>>): (t: Table)
    ensures WellFormed(t)
    ensures forall k :: k in t.counts <==> TrackedTrait(k, skip) && HasTrait(Flatten(c.metadata), k)
    ensures forall k, v :: k in t.counts ==>
      (v in t.counts[k] <==> Occurrences(Flatten(c.metadata), k, v) > 0)
    ensures forall k, v :: k in t.counts && v in t.counts[k] ==>
      t.counts[k][v] == Occurrences(Flatten(c.metadata), k, v)
    ensures forall i, j :: 0 <= i < j < |t.order| ==>
      FirstIndex(Flatten(c.metadata), t.order[i]) < FirstIndex(Flatten(c.metadata), t.order[j])
  {
    TallyMeaning(Flatten(c.metadata), skip);
    TallyOrder(Flatten(c.metadata), skip);
    Tally(Flatten(c.metadata), skip)
  }

  /** A `None` and an empty `skip_traits` give the same table. */
  lemma {:induction false} EmptySkipIsNoSkip(attrs: seq<Attribute>)
    ensures Tally(attrs, Some([])) == Tally(attrs, None)
  {
    if |attrs| > 0 {
      EmptySkipIsNoSkip(attrs[..|attrs| - 1]);
    }
  }

  /** Counting is additive over concatenation, so the order in which tokens
      are visited does not change any counter. */
  lemma {:induction false} OccurrencesAppend(a: seq<Attribute>, b: seq<Attribute>, t: string, v: Value)
    ensures Occurrences(a + b, t, v) == Occurrences(a, t, v) + Occurrences(b, t, v)
    ensures Occurrences(a + b, t, v) == Occurrences(b + a, t, v)
  {
    OccurrencesAppendLeft(a, b, t, v);
    OccurrencesAppendLeft(b, a, t, v);
  }

  lemma {:induction false} OccurrencesAppendLeft(a: seq<Attribute>, b: seq<Attribute>, t: string, v: Value)
    ensures Occurrences(a + b, t, v) == Occurrences(a, t, v) + Occurrences(b, t, v)
  {
    if |b| == 0 {
      assert a + b == a;
    } else {
      assert (a + b)[..|a + b| - 1] == a + b[..|b| - 1];
      OccurrencesAppendLeft(a, b[..|b| - 1], t, v);
    }
  }

  lemma {:induction false} FlattenAppend(a: TokenMap<Metadata>, b: TokenMap<Metadata>)
    ensures Flatten(a + b) == Flatten(a) + Flatten(b)
  {
    if |b| == 0 {
      assert a + b == a;
    } else {
      assert (a + b)[..|a + b| - 1] == a + b[..|b| - 1];
      FlattenAppend(a, b[..|b| - 1]);
    }
  }

  /** The counts do not depend on the order of the tokens: any rearrangement
      of the collection's entries gives every (trait, value) the same count.
      (The table's key order does depend on it.) */
  lemma {:induction false} CountsIgnoreTokenOrder(ms1: TokenMap<Metadata>, ms2: TokenMap<Metadata>, t: string, v: Value)
    requires multiset(ms1) == multiset(ms2)
    ensures Occurrences(Flatten(ms1), t, v) == Occurrences(Flatten(ms2), t, v)
    decreases |ms1|
  {
    if |ms1| == 0 {
      assert |multiset(ms2)| == 0;
    } else {
      var p, x := ms1[..|ms1| - 1], ms1[|ms1| - 1];
      assert x in multiset(ms2);
      var k :| 0 <= k < |ms2| && ms2[k] == x;
      RemoveOne(ms1, ms2, k);
      CountsIgnoreTokenOrder(p, ms2[..k] + ms2[k + 1..], t, v);
      OccurrencesSplit(ms2, k, t, v);
      OccurrencesAppendLeft(Flatten(p), x.1.attributes, t, v);
    }
  }

  /** Taking one matching entry out of two rearrangements leaves rearrangements. */
  lemma RemoveOne(ms1: TokenMap<Metadata>, ms2: TokenMap<Metadata>, k: nat)
    requires multiset(ms1) == multiset(ms2) && |ms1| > 0
    requires k < |ms2| && ms2[k] == ms1[|ms1| - 1]
    ensures multiset(ms1[..|ms1| - 1]) == multiset(ms2[..k] + ms2[k + 1..])
  {
    var x := ms1[|ms1| - 1];
    var M, N := multiset(ms1[..|ms1| - 1]), multiset(ms2[..k] + ms2[k + 1..]);
    assert ms1 == ms1[..|ms1| - 1] + [x];
    assert ms2 == ms2[..k] + [x] + ms2[k + 1..];
    assert multiset(ms1) == M + multiset{x};
    assert multiset(ms2) == N + multiset{x};
    forall y ensures M[y] == N[y] {
      assert (M + multiset{x})[y] == (N + multiset{x})[y];
    }
  }

  /** One token's attributes in the middle of the collection add their own count. */
  lemma OccurrencesSplit(ms: TokenMap<Metadata>, k: nat, t: string, v: Value)
    requires k < |ms|
    ensures Occurrences(Flatten(ms), t, v)
         == Occurrences(Flatten(ms[..k] + ms[k + 1..]), t, v) + Occurrences(ms[k].1.attributes, t, v)
  {
    var A, x, B := ms[..k], ms[k], ms[k + 1..];
    assert ms == (A + [x]) + B;
    FlattenAppend(A, B);
    FlattenAppend(A + [x], B);
    assert (A + [x])[..|A + [x]| - 1] == A;
    assert Flatten(A + [x]) == Flatten(A) + x.1.attributes;
    OccurrencesAppendLeft(Flatten(A), Flatten(B), t, v);
    OccurrencesAppendLeft(Flatten(A + [x]), Flatten(B), t, v);
    OccurrencesAppendLeft(Flatten(A), x.1.attributes, t, v);
  }

  /** An attribute of some token of the collection is among the flattened attributes. */
  lemma {:induction false} FlattenContains(ms: TokenMap<Metadata>, i: nat, a: Attribute)
    requires i < |ms| && a in ms[i].1.attributes
    ensures a in Flatten(ms)
  {
    if i < |ms| - 1 {
      FlattenContains(ms[..|ms| - 1], i, a);
    }
  }

  lemma {:induction false} PresentOccurs(attrs: seq<Attribute>, a: Attribute, t: string)
    requires a in attrs && a.traitType == Some(t)
    ensures Occurrences(attrs, t, a.value) > 0
  {
    var p := attrs[..|attrs| - 1];
    if attrs[|attrs| - 1] != a {
      assert attrs == p + [attrs[|attrs| - 1]];
      PresentOccurs(p, a, t);
    }
  }

  /** The attributes of a looked-up token, empty when the token is absent. */
  function AttributesOf(meta: Option<Metadata>): seq<Attribute>
  {
    match meta
    case Some(m) => m.attributes
    case None => []
  }

  /** The count the scan weighs for trait `t`: that of the token's first
      attribute with this trait, if it has one. */
  function Score(table: Table, attrs: seq<Attribute>, t: string): Option<int>
  {
    match FirstWithTrait(attrs, t)
    case None => None
    case Some(a) =>
      if t in table.counts && a.value in table.counts[t] then Some(table.counts[t][a.value]) else None
  }

  /** Every key in the table's order has a counter for the value of the
      token's first attribute with that trait, so the scan's lookups succeed. */
  ghost predicate Covers(table: Table, attrs: seq<Attribute>)
  {
    forall k :: 0 <= k < |table.order| ==>
      && table.order[k] in table.counts
      && (FirstWithTrait(attrs, table.order[k]).Some? ==>
            FirstWithTrait(attrs, table.order[k]).value.value in table.counts[table.order[k]])
  }

  /** `a` with count `n` is what the scan returns: the first attribute of trait
      `order[k]`, below the sentinel, strictly below every earlier trait's
      count and no greater than any later one's. */
  predicate IsRarest(table: Table, attrs: seq<Attribute>, supply: int, a: Attribute, n: int)
  {
    exists k :: 0 <= k < |table.order| && FirstWithTrait(attrs, table.order[k]) == Some(a)
      && RarestAt(table, attrs, supply, k, n, |table.order|)
  }

  /** Trait `order[k]` holds the minimum `n` among the first `upto` traits. */
  predicate RarestAt(table: Table, attrs: seq<Attribute>, supply: int, k: nat, n: int, upto: nat)
    requires k < upto <= |table.order|
  {
    && Score(table, attrs, table.order[k]) == Some(n)
    && n < supply
    && (forall j :: 0 <= j < k && Score(table, attrs, table.order[j]).Some? ==>
          Score(table, attrs, table.order[j]).value > n)
    && (forall j :: k < j < upto && Score(table, attrs, table.order[j]).Some? ==>
          Score(table, attrs, table.order[j]).value >= n)
  }

  datatype RarestError =
    | UnknownToken        // `collection.metadata[token_id]` raises KeyError
    | NoRarestAttribute   // "Couldn't find the rarest attribute"

  /** The loop of `get_rarest_attribute` over a given table, with `meta` the
      outcome of `collection.metadata[token_id]` (evaluated on every pass, so
      it fails only when the table has a key). */
  method Scan(table: Table, meta: Option<Metadata>, supply: int)
    returns (r: Result<(Attribute, int), RarestError>)
    requires Covers(table, AttributesOf(meta))
    ensures r == Err(UnknownToken) <==> meta.None? && |table.order| > 0
    ensures r.Ok? ==> meta.Some? && IsRarest(table, AttributesOf(meta), supply, r.value.0, r.value.1)
    ensures r == Err(NoRarestAttribute) ==>
      forall k :: 0 <= k < |table.order| && Score(table, AttributesOf(meta), table.order[k]).Some? ==>
        Score(table, AttributesOf(meta), table.order[k]).value >= supply
  {
    var attrs := AttributesOf(meta);
    var rarest: Option<Attribute> := None;
    var top := supply;
    ghost var best := 0;
    var i := 0;
    while i < |table.order|
      invariant 0 <= i <= |table.order|
      invariant i > 0 ==> meta.Some?
      invariant rarest.None? ==> top == supply
      invariant rarest.None? ==> forall j :: 0 <= j < i && Score(table, attrs, table.order[j]).Some? ==>
                                   Score(table, attrs, table.order[j]).value >= supply
      invariant rarest.Some? ==> best < i && FirstWithTrait(attrs, table.order[best]) == rarest
      invariant rarest.Some? ==> RarestAt(table, attrs, supply, best, top, i)
    {
      var name := table.order[i];
      if meta.None? {
        return Err(UnknownToken);
      }
      var found := FirstWithTrait(meta.value.attributes, name);
      if found.Some? {
        var count := table.counts[name][found.value.value];
        if count < top {
          top := count;
          rarest := found;
          best := i;
        }
      }
      i := i + 1;
    }
    if rarest.None? {
      return Err(NoRarestAttribute);
    }
    return Ok((rarest.value, top));
  }

  /** The table built from a collection covers every token's attributes. */
  lemma RarityCoversToken(c: CollectionInfo, skip: Option<seq<string>>, tokenId: TokenId)
    ensures Covers(AttributeRarity(c, skip), AttributesOf(Lookup(c.metadata, tokenId)))
  {
    var table := AttributeRarity(c, skip);
    var meta := Lookup(c.metadata, tokenId);
    forall k | 0 <= k < |table.order| && FirstWithTrait(AttributesOf(meta), table.order[k]).Some?
      ensures FirstWithTrait(AttributesOf(meta), table.order[k]).value.value in table.counts[table.order[k]]
    {
      var a := FirstWithTrait(AttributesOf(meta), table.order[k]).value;
      var i :| 0 <= i < |c.metadata| && c.metadata[i] == (tokenId, meta.value);
      FlattenContains(c.metadata, i, a);
      PresentOccurs(Flatten(c.metadata), a, table.order[k]);
    }
  }

  /** `get_rarest_attribute`: build the table, then scan it for the token.
      The count returned is the attribute's number of occurrences in the
      whole collection. */
  method RarestAttribute(c: CollectionInfo, tokenId: TokenId, skip: Option<seq<string>>)
    returns (r: Result<(Attribute, int), RarestError>)
    ensures r == Err(UnknownToken) <==>
      Lookup(c.metadata, tokenId).None? && |AttributeRarity(c, skip).order| > 0
    ensures r.Ok? ==> (Lookup(c.metadata, tokenId).Some?
      && IsRarest(AttributeRarity(c, skip), AttributesOf(Lookup(c.metadata, tokenId)), c.totalSupply, r.value.0, r.value.1))
    ensures r.Ok? ==> (r.value.0.traitType.Some?
      && r.value.1 == Occurrences(Flatten(c.metadata), r.value.0.traitType.value, r.value.0.value))
    ensures r == Err(NoRarestAttribute) ==>
      var table := AttributeRarity(c, skip);
      forall k :: 0 <= k < |table.order| && Score(table, AttributesOf(Lookup(c.metadata, tokenId)), table.order[k]).Some? ==>
        Score(table, AttributesOf(Lookup(c.metadata, tokenId)), table.order[k]).value >= c.totalSupply
  {
    var table := AttributeRarity(c, skip);
    var meta := Lookup(c.metadata, tokenId);
    RarityCoversToken(c, skip, tokenId);
    r := Scan(table, meta, c.totalSupply);
    if r.Ok? {
      var k :| 0 <= k < |table.order| && FirstWithTrait(AttributesOf(meta), table.order[k]) == Some(r.value.0)
               && RarestAt(table, AttributesOf(meta), c.totalSupply, k, r.value.1, |table.order|);
      assert r.value.0.traitType == Some(table.order[k]);
    }
  }

  /** The scan's answer is determined: at most one attribute and count satisfy `IsRarest`. */
  lemma RarestUnique(table: Table, attrs: seq<Attribute>, supply: int, a1: Attribute, n1: int, a2: Attribute, n2: int)
    requires IsRarest(table, attrs, supply, a1, n1) && IsRarest(table, attrs, supply, a2, n2)
    ensures a1 == a2 && n1 == n2
  {
    var k1 :| 0 <= k1 < |table.order| && FirstWithTrait(attrs, table.order[k1]) == Some(a1)
              && RarestAt(table, attrs, supply, k1, n1, |table.order|);
    var k2 :| 0 <= k2 < |table.order| && FirstWithTrait(attrs, table.order[k2]) == Some(a2)
              && RarestAt(table, attrs, supply, k2, n2, |table.order|);
    assert k1 == k2;
  }

  /** Ties go to the trait that entered the table first, not to the token's
      own attribute order: here the token lists "size" first, both counts are
      1, and "color" (first in the table) wins. */
  lemma TieGoesToTableOrder()
    ensures var color := Attribute(Some("color"), None, Str("red"), None);
            var size := Attribute(Some("size"), None, Str("L"), None);
            var table := Table(["color", "size"], map["color" := map[Str("red") := 1], "size" := map[Str("L") := 1]]);
      && IsRarest(table, [size, color], 4, color, 1)
      && !IsRarest(table, [size, color], 4, size, 1)
  {
    var color := Attribute(Some("color"), None, Str("red"), None);
    var size := Attribute(Some("size"), None, Str("L"), None);
    var table := Table(["color", "size"], map["color" := map[Str("red") := 1], "size" := map[Str("L") := 1]]);
    var attrs := [size, color];
    assert attrs[1].traitType == Some("color");
    assert attrs[0].traitType == Some("size");
    assert FirstIndex(attrs, "color") == 1;
    assert FirstIndex(attrs, "size") == 0;
    assert RarestAt(table, attrs, 4, 0, 1, 2);
    if IsRarest(table, attrs, 4, size, 1) {
      RarestUnique(table, attrs, 4, size, 1, color, 1);
    }
  }
}

=== FILE: records.dfy ===
/** The records of nftsets/typing.py: attributes with their two validators
    (display type and maximum value, after the OpenSea metadata standard),
    token metadata, collections and sets. */
module Records {
  import opened Wrappers
  import opened Text

  type TokenId = int
  type ChainId = int

  /** The enum as declared, including the member spelled `BOOST_PERCENTATGE`. */
  datatype DisplayType = Number | BoostNumber | BoostPercentatge | Date

  /** The member names Python prints: the upper-case names as declared,
      not the lower-case values such as "boost_percentage". */
  function MemberName(d: DisplayType): string
  {
    match d
    case Number => "NUMBER"
    case BoostNumber => "BOOST_NUMBER"
    case BoostPercentatge => "BOOST_PERCENTATGE"
    case Date => "DATE"
  }

  /** `str(member)` of a plain `Enum`: the class name, a dot and the member
      name, which is upper-case letters and underscores only. */
  function DisplayTypeStr(d: DisplayType): (r: string)
    ensures |r| > |"DisplayType."| && r[..|"DisplayType."|] == "DisplayType."
    ensures forall i :: |"DisplayType."| <= i < |r| ==> 'A' <= r[i] <= 'Z' || r[i] == '_'
  {
    "DisplayType." + MemberName(d)
  }

  /** Attribute values; floats are outside this model. */
  datatype Value = Str(s: string) | Int(i: int)

  datatype Attribute = Attribute(
    traitType: Option<string>,
    displayType: Option<DisplayType>,
    value: Value,
    maxValue: Option<int>)

  /** `isinstance(value, float)`: no value of this model is a float. */
  predicate IsFloat(v: Value)
  {
    match v
    case Str(_) => false
    case Int(_) => false
  }

  /** The `value_matches_display_type` root validator. The percentage branch
      is chosen by a substring test on the printed enum member, which never
      succeeds, so every display type demands an int. */
  function MatchesDisplayType(a: Attribute): (ok: bool)
    ensures a.displayType.None? ==> ok
    ensures a.displayType.Some? ==> (ok <==> a.value.Int?)
  {
    match a.displayType
    case None => true
    case Some(d) =>
      NoPercentageMember(d);
      if Contains(DisplayTypeStr(d), "percentage") then IsFloat(a.value) else a.value.Int?
  }

  /** Python's `v <= m` for an attribute value and an int bound: `None` where
      comparing a string with an int raises `TypeError`. */
  function PyLessEq(v: Value, m: int): Option<bool>
  {
    match v
    case Int(i) => Some(i <= m)
    case Str(_) => None
  }

  /** The `value_within_max_value` root validator. A `TypeError` from the
      comparison fails validation like a failed assertion. So a set bound
      admits exactly the ints up to it, and an unset one admits everything. */
  function WithinMaxValue(a: Attribute): (ok: bool)
    ensures a.maxValue.None? ==> ok
    ensures a.maxValue.Some? ==> (ok <==> a.value.Int? && a.value.i <= a.maxValue.value)
  {
    match a.maxValue
    case None => true
    case Some(m) => PyLessEq(a.value, m) == Some(true)
  }

  datatype AttributeError = DisplayTypeMismatch | AboveMaxValue

  /** Both root validators run and every failure is reported. */
  function AttributeErrors(a: Attribute): (errs: seq<AttributeError>)
    ensures DisplayTypeMismatch in errs <==> !MatchesDisplayType(a)
    ensures AboveMaxValue in errs <==> !WithinMaxValue(a)
    ensures |errs| <= 2
  {
    (if MatchesDisplayType(a) then [] else [DisplayTypeMismatch])
    + (if WithinMaxValue(a) then [] else [AboveMaxValue])
  }

  predicate ValidAttribute(a: Attribute)
  {
    |AttributeErrors(a)| == 0
  }

  /** No printed member contains the lower-case word "percentage": `str()`
      prints the upper-case member name, and "DisplayType." has no 'c'. */
  lemma NoPercentageMember(d: DisplayType)
    ensures !Contains(DisplayTypeStr(d), "percentage")
  {
    assert "percentage"[3] == 'c';
    assert 'c' !in DisplayTypeStr(d);
    MissingCharNotContained(DisplayTypeStr(d), "percentage", 3);
  }

  /** An attribute is valid exactly when both validators pass. */
  lemma ValidAttributeIff(a: Attribute)
    ensures ValidAttribute(a) <==> MatchesDisplayType(a) && WithinMaxValue(a)
  {
  }

  datatype Metadata = Metadata(
    name: Option<string>,
    description: Option<string>,
    image: Option<string>,
    attributes: seq<Attribute>)

  /** A Python dict with integer keys, in insertion order. */
  type TokenMap<V> = seq<(TokenId, V)>

  predicate DistinctKeys<V>(m: TokenMap<V>)
  {
    forall i, j :: 0 <= i < j < |m| ==> m[i].0 != m[j].0
  }

  function Keys<V>(m: TokenMap<V>): set<TokenId>
  {
    set i | 0 <= i < |m| :: m[i].0
  }

  /** `m[k]` of a dict: the value stored under `k`, if any. */
  function Lookup<V(==)>(m: TokenMap<V>, k: TokenId): (r: Option<V>)
    ensures r.Some? <==> k in Keys(m)
    ensures r.Some? ==> exists i :: 0 <= i < |m| && m[i] == (k, r.value)
  {
    if |m| == 0 then None
    else if m[0].0 == k then Some(m[0].1)
    else
      var r := Lookup(m[1..], k);
      assert Keys(m) == {m[0].0} + Keys(m[1..]) by {
        forall x | x in Keys(m) ensures x in {m[0].0} + Keys(m[1..]) {
          var i :| 0 <= i < |m| && m[i].0 == x;
          if i > 0 { assert m[1..][i - 1] == m[i]; }
        }
      }
      if r.Some? then
        var i :| 0 <= i < |m[1..]| && m[1..][i] == (k, r.value);
        assert m[i + 1] == (k, r.value);
        r
      else r
  }

  /** With distinct keys, the value at position `i` is what `Lookup` finds. */
  lemma LookupAt<V>(m: TokenMap<V>, i: nat)
    requires DistinctKeys(m) && i < |m|
    ensures Lookup(m, m[i].0) == Some(m[i].1)
  {
    var r := Lookup(m, m[i].0);
    var j :| 0 <= j < |m| && m[j] == (m[i].0, r.value);
  }

  /** A mapping whose i-th key is i, as `enumerate` and `range` build: keys
      distinct, exactly `0..|m|-1`, and `m[k]` the k-th value. */
  lemma CountingKeys<V>(m: TokenMap<V>)
    requires forall i :: 0 <= i < |m| ==> m[i].0 == i
    ensures DistinctKeys(m)
    ensures forall k :: k in Keys(m) <==> 0 <= k < |m|
    ensures forall k :: 0 <= k < |m| ==> Lookup(m, k) == Some(m[k].1)
  {
    forall k | 0 <= k < |m| ensures k in Keys(m) && Lookup(m, k) == Some(m[k].1) {
      LookupAt(m, k);
    }
  }

  datatype CollectionInfo = CollectionInfo(
    chainId: ChainId,
    address: string,
    name: string,
    symbol: string,
    collectionUri: Option<string>,
    totalSupply: int,
    metadata: TokenMap<Metadata>)

  datatype NftSet = NftSet(
    name: string,
    timestamp: string,
    collections: seq<CollectionInfo>,
    keywords: seq<string>,
    logoUri: Option<string>)
}

=== FILE: registry.dfy ===
/** The in-memory part of the set registry (`Manager` in nftsets/manager.py):
    installed sets keyed by name, a default name ("" when unset), and the
    collection queries over a set. Reading and writing the cache folder, and
    the HTTP request in `install`, are outside this model: `Install` receives
    the already-parsed set. */
module Registry {
  import opened Wrappers
  import opened Text
  import opened Records

  datatype Manager = Manager(installed: map<string, NftSet>, default: string)

  /** Every set is filed under its own name, as `install` and the start-up
      load both do. */
  ghost predicate Valid(m: Manager)
  {
    forall k :: k in m.installed ==> m.installed[k].name == k
  }

  datatype RegistryError =
    | UnknownSet(name: string)   // "Unknown token list: ..." (or KeyError in `remove`)
    | NoDefault                  // "Default token list has not been set."
    | NoSuchCollection           // "Collection with symbol ... does not exist"
    | AmbiguousCollection        // "Multiple collectionss with symbol ..."

  /** `install`: file the set under its name, replacing any set of that name,
      and return the name. */
  function Install(m: Manager, s: NftSet): (r: (Manager, string))
    ensures r.1 == s.name
    ensures r.0.installed.Keys == m.installed.Keys + {s.name}
    ensures r.0.installed[s.name] == s
    ensures forall k :: k in m.installed && k != s.name ==> r.0.installed[k] == m.installed[k]
    ensures r.0.default == m.default
    ensures Valid(m) ==> Valid(r.0)
  {
    (Manager(m.installed[s.name := s], m.default), s.name)
  }

  /** `remove`: look the set up (KeyError if absent), clear the default if it
      names that set, and delete the entry under the set's own name. */
  function Remove(m: Manager, name: string): (r: Result<Manager, RegistryError>)
    ensures r.Err? <==> name !in m.installed
    ensures r.Err? ==> r.error == UnknownSet(name)
    ensures Valid(m) && r.Ok? ==>
      && r.value.installed.Keys == m.installed.Keys - {name}
      && (forall k :: k in r.value.installed ==> r.value.installed[k] == m.installed[k])
      && (r.value.default == if m.default == name then "" else m.default)
      && Valid(r.value)
  {
    if name !in m.installed then Err(UnknownSet(name))
    else
      var s := m.installed[name];
      var default := if s.name == m.default then "" else m.default;
      Ok(Manager(m.installed - {s.name}, default))
  }

  /** `set_default`: only an installed name can become the default. */
  function SetDefault(m: Manager, name: string): (r: Result<Manager, RegistryError>)
    ensures r.Err? <==> name !in m.installed
    ensures r.Err? ==> r.error == UnknownSet(name)
    ensures r.Ok? ==> r.value.default == name && r.value.installed == m.installed
  {
    if name !in m.installed then Err(UnknownSet(name)) else Ok(m.(default := name))
  }

  /** `available`: the installed names, sorted ascending. */
  method Available(m: Manager) returns (names: seq<string>)
    ensures Ascending(names)
    ensures forall n :: n in names <==> n in m.installed
    ensures |names| == |m.installed|
  {
    names := [];
    var rest := m.installed.Keys;
    while rest != {}
      invariant rest <= m.installed.Keys
      invariant Ascending(names)
      invariant forall n :: n in names <==> n in m.installed && n !in rest
      invariant |names| + |rest| == |m.installed|
      decreases rest
    {
      var x :| x in rest;
      names := Insert(x, names);
      rest := rest - {x};
    }
  }

  /** The name `get` looks up: an empty or missing name means the default. */
  function Resolve(m: Manager, name: Option<string>): (r: Result<string, RegistryError>)
    ensures r.Ok? ==> r.value != ""
    ensures name.Some? && name.value != "" ==> r == Ok(name.value)
    ensures (name.None? || name.value == "") ==> (r.Err? <==> m.default == "")
    ensures (name.None? || name.value == "") && m.default != "" ==> r == Ok(m.default)
  {
    if name.None? || name.value == "" then
      if m.default == "" then Err(NoDefault) else Ok(m.default)
    else Ok(name.value)
  }

  /** `get`: the set under the given name, or under the default when no name
      is given. */
  function Get(m: Manager, name: Option<string>): (r: Result<NftSet, RegistryError>)
    ensures Resolve(m, name).Err? ==> r == Err(NoDefault)
    ensures Resolve(m, name).Ok? ==>
      (r.Ok? <==> Resolve(m, name).value in m.installed)
      && (r.Ok? ==> r.value == m.installed[Resolve(m, name).value])
      && (r.Err? ==> r.error == UnknownSet(Resolve(m, name).value))
    ensures Valid(m) && r.Ok? ==> r.value.name == Resolve(m, name).value
  {
    match Resolve(m, name)
    case Err(e) => Err(e)
    case Ok(n) => if n !in m.installed then Err(UnknownSet(n)) else Ok(m.installed[n])
  }

  /** `a` lists some of the elements of `b`, in `b`'s order. */
  predicate Subsequence(a: seq<CollectionInfo>, b: seq<CollectionInfo>)
  {
    if |a| == 0 then true
    else if |b| == 0 then false
    else if a[0] == b[0] then Subsequence(a[1..], b[1..])
    else Subsequence(a, b[1..])
  }

  /** How many positions of `xs` pass `p`. */
  function CountIf(xs: seq<CollectionInfo>, p: CollectionInfo -> bool): nat
  {
    if |xs| == 0 then 0 else (if p(xs[0]) then 1 else 0) + CountIf(xs[1..], p)
  }

  /** Python's `filter` over a list of collections: the passing elements, each
      position kept once, in their original order. */
  function Filter(xs: seq<CollectionInfo>, p: CollectionInfo -> bool): (r: seq<CollectionInfo>)
    ensures forall x :: x in r <==> x in xs && p(x)
    ensures Subsequence(r, xs)
    ensures |r| == CountIf(xs, p)
    ensures |r| <= |xs|
  {
    if |xs| == 0 then []
    else
      assert forall x :: x in xs <==> x == xs[0] || x in xs[1..];
      var rest := Filter(xs[1..], p);
      if p(xs[0]) then [xs[0]] + rest else rest
  }

  /** Filtering twice is filtering once by both tests. */
  lemma {:induction false} FilterTwice(xs: seq<CollectionInfo>, p: CollectionInfo -> bool, q: CollectionInfo -> bool)
    ensures Filter(Filter(xs, p), q) == Filter(xs, x => p(x) && q(x))
  {
    if |xs| > 0 {
      FilterTwice(xs[1..], p, q);
      if p(xs[0]) {
        assert Filter(xs, p) == [xs[0]] + Filter(xs[1..], p);
        assert Filter(xs, p)[1..] == Filter(xs[1..], p);
      }
    }
  }

  /** No match exactly when no element passes. */
  lemma {:induction false} FilterNone(xs: seq<CollectionInfo>, p: CollectionInfo -> bool)
    ensures |Filter(xs, p)| == 0 <==> forall i :: 0 <= i < |xs| ==> !p(xs[i])
  {
    if |xs| > 0 {
      FilterNone(xs[1..], p);
      assert forall i :: 1 <= i < |xs| ==> xs[i] == xs[1..][i - 1];
    }
  }

  /** Two or more matches exactly when two positions pass. */
  lemma {:induction false} FilterMany(xs: seq<CollectionInfo>, p: CollectionInfo -> bool)
    ensures |Filter(xs, p)| >= 2 <==> exists i, j :: 0 <= i < j < |xs| && p(xs[i]) && p(xs[j])
  {
    if |xs| > 0 {
      var t := xs[1..];
      assert Filter(xs, p) == if p(xs[0]) then [xs[0]] + Filter(t, p) else Filter(t, p);
      FilterMany(t, p);
      FilterNone(t, p);
      if |Filter(xs, p)| >= 2 {
        if p(xs[0]) {
          var j :| 0 <= j < |t| && p(t[j]);
          assert p(xs[0]) && p(xs[j + 1]);
        } else {
          var i, j :| 0 <= i < j < |t| && p(t[i]) && p(t[j]);
          assert p(xs[i + 1]) && p(xs[j + 1]);
        }
      }
      if exists i, j :: 0 <= i < j < |xs| && p(xs[i]) && p(xs[j]) {
        var i, j :| 0 <= i < j < |xs| && p(xs[i]) && p(xs[j]);
        assert xs[j] == t[j - 1];
        if i > 0 {
          assert xs[i] == t[i - 1];
        }
      }
    }
  }

  function OnChain(chainId: ChainId): CollectionInfo -> bool
  {
    (c: CollectionInfo) => c.chainId == chainId
  }

  function BySymbol(caseInsensitive: bool, symbol: string): CollectionInfo -> bool
  {
    (c: CollectionInfo) => SymbolMatches(caseInsensitive, c.symbol, symbol)
  }

  /** `get_collections`: the set's collections on the given chain, in their order. */
  function GetCollections(m: Manager, name: Option<string>, chainId: ChainId): (r: Result<seq<CollectionInfo>, RegistryError>)
    ensures Get(m, name).Err? ==> r == Err(Get(m, name).error)
    ensures Get(m, name).Ok? ==> r.Ok? && var cs := Get(m, name).value.collections;
      && (forall x :: x in r.value <==> x in cs && x.chainId == chainId)
      && Subsequence(r.value, cs)
      && |r.value| == CountIf(cs, OnChain(chainId))
  {
    match Get(m, name)
    case Err(e) => Err(e)
    case Ok(s) => Ok(Filter(s.collections, OnChain(chainId)))
  }

  /** The symbol test of `get_collection_info` as written: the flag named
      `case_insensitive` selects the exact comparison when true and the
      lower-cased one when false. */
  function SymbolMatches(caseInsensitive: bool, candidate: string, symbol: string): (ok: bool)
    ensures caseInsensitive ==> (ok <==> candidate == symbol)
    ensures !caseInsensitive ==>
      (ok <==> (|candidate| == |symbol| && forall i :: 0 <= i < |symbol| ==> LowerChar(candidate[i]) == LowerChar(symbol[i])))
    ensures candidate == symbol ==> ok
  {
    if caseInsensitive then candidate == symbol else Lower(candidate) == Lower(symbol)
  }

  predicate Selected(c: CollectionInfo, chainId: ChainId, symbol: string, caseInsensitive: bool)
  {
    c.chainId == chainId && SymbolMatches(caseInsensitive, c.symbol, symbol)
  }

  /** What the two-stage filter of `get_collection_info` keeps, stated over
      the set's collections directly. */
  lemma SelectionCount(cs: seq<CollectionInfo>, chainId: ChainId, symbol: string, caseInsensitive: bool)
    ensures var matching := Filter(Filter(cs, OnChain(chainId)), BySymbol(caseInsensitive, symbol));
      && (|matching| == 0 <==> forall i :: 0 <= i < |cs| ==> !Selected(cs[i], chainId, symbol, caseInsensitive))
      && (|matching| >= 2 <==> exists i, j :: 0 <= i < j < |cs| && Selected(cs[i], chainId, symbol, caseInsensitive)
                                                               && Selected(cs[j], chainId, symbol, caseInsensitive))
      && (|matching| >= 1 ==> exists i :: 0 <= i < |cs| && cs[i] == matching[0] && Selected(cs[i], chainId, symbol, caseInsensitive))
  {
    var p, q := OnChain(chainId), BySymbol(caseInsensitive, symbol);
    var both := (c: CollectionInfo) => Selected(c, chainId, symbol, caseInsensitive);
    FilterTwice(cs, p, q);
    FilterSamePredicate(cs, (c: CollectionInfo) => p(c) && q(c), both);
    var matching := Filter(cs, both);
    FilterNone(cs, both);
    FilterMany(cs, both);
    if |matching| >= 1 {
      assert matching[0] in matching;
    }
  }

  /** `get_collection_info`: filter by chain, then by symbol; fail on no match
      or on several, otherwise return the one match. */
  function GetCollectionInfo(m: Manager, symbol: string, name: Option<string>, chainId: ChainId, caseInsensitive: bool)
    : (r: Result<CollectionInfo, RegistryError>)
    ensures Get(m, name).Err? ==> r == Err(Get(m, name).error)
    ensures Get(m, name).Ok? ==> var cs := Get(m, name).value.collections;
      && (r == Err(NoSuchCollection) <==> forall i :: 0 <= i < |cs| ==> !Selected(cs[i], chainId, symbol, caseInsensitive))
      && (r == Err(AmbiguousCollection) <==>
            exists i, j :: 0 <= i < j < |cs| && Selected(cs[i], chainId, symbol, caseInsensitive)
                                             && Selected(cs[j], chainId, symbol, caseInsensitive))
      && (r.Ok? ==> exists i :: 0 <= i < |cs| && cs[i] == r.value && Selected(cs[i], chainId, symbol, caseInsensitive))
      && (r.Ok? || r == Err(NoSuchCollection) || r == Err(AmbiguousCollection))
  {
    match GetCollections(m, name, chainId)
    case Err(e) => Err(e)
    case Ok(onChain) =>
      var matching := Filter(onChain, BySymbol(caseInsensitive, symbol));
      SelectionCount(Get(m, name).value.collections, chainId, symbol, caseInsensitive);
      if |matching| == 0 then Err(NoSuchCollection)
      else if |matching| > 1 then Err(AmbiguousCollection)
      else Ok(matching[0])
  }

  /** Two tests that agree everywhere filter alike. */
  lemma {:induction false} FilterSamePredicate(xs: seq<CollectionInfo>, p: CollectionInfo -> bool, q: CollectionInfo -> bool)
    requires forall x :: p(x) == q(x)
    ensures Filter(xs, p) == Filter(xs, q)
  {
    if |xs| > 0 {
      FilterSamePredicate(xs[1..], p, q);
    }
  }

  /** The flag is inverted: with `case_insensitive` true, "PUNK" does not match
      "punk"; with it false, it does. */
  lemma CaseFlagInverted()
    ensures !SymbolMatches(true, "PUNK", "punk")
    ensures SymbolMatches(false, "PUNK", "punk")
  {
    assert Lower("PUNK") == "punk";
    assert Lower("punk") == "punk";
  }

  /** A set just installed is what `get` returns under its name. */
  lemma InstallThenGet(m: Manager, s: NftSet)
    requires s.name != ""
    ensures Get(Install(m, s).0, Some(s.name)) == Ok(s)
  {
  }

  /** Installing a new set and removing it again restores the registry. */
  lemma InstallThenRemove(m: Manager, s: NftSet)
    requires Valid(m) && s.name !in m.installed && s.name != m.default
    ensures Remove(Install(m, s).0, s.name) == Ok(m)
  {
    var m' := Install(m, s).0;
    assert m'.installed - {s.name} == m.installed;
  }

  /** After `set_default`, `get` with no name returns the chosen set, unless
      the chosen name is empty, which `get` treats as unset. */
  lemma SetDefaultThenGet(m: Manager, name: string)
    requires name in m.installed
    ensures SetDefault(m, name).Ok?
    ensures name != "" ==> Get(SetDefault(m, name).value, None) == Ok(m.installed[name])
    ensures name == "" ==> Get(SetDefault(m, name).value, None) == Err(NoDefault)
  {
  }

  /** A removed set can no longer be fetched by name. */
  lemma RemoveThenGet(m: Manager, name: string)
    requires Valid(m) && name in m.installed && name != ""
    ensures Remove(m, name).Ok?
    ensures Get(Remove(m, name).value, Some(name)) == Err(UnknownSet(name))
  {
  }
}

=== FILE: resolution.dfy ===
/** Metadata source normalisation (`CollectionInfo.expand_metadata` in
    nftsets/typing.py) and the file names `unpack_metadata_to_folder` writes.

    The HTTP request and its JSON decoding become the parameter `fetch`, and
    `Metadata.parse_obj` becomes `parse`; each yields `None` where the Python code
    would raise. Entries are resolved one after another and the first failure
    aborts the whole resolution, so no partial mapping is ever produced. */
module Resolution {
  import opened Wrappers
  import opened Text
  import opened Decimal
  import opened Records

  /** One value of a per-token source mapping: a URI to fetch, or inline JSON. */
  datatype RawEntry<J> = Uri(uri: string) | Inline(json: J)

  /** The `metadata` field as it arrives before validation. */
  datatype RawSource<J> =
    | Missing                              // no "metadata" key at all
    | Template(base: string)               // a single URI string
    | Entries(entries: TokenMap<RawEntry<J>>)  // a dict, in insertion order
    | Unrecognized                         // anything else

  /** The `total_supply` key as it arrives: absent, present as `null`, or an
      integer. */
  datatype Supply = Absent | Null | Given(value: int)

  /** The collection's raw fields. */
  datatype RawCollection<J> = RawCollection(
    chainId: ChainId,
    address: string,
    name: string,
    symbol: string,
    collectionUri: Option<string>,
    totalSupply: Supply,
    metadata: RawSource<J>)

  datatype ExpandError =
    | MissingMetadata          // `data["metadata"]` raises KeyError
    | CannotExpand             // "Cannot expand metadata ..."
    | EntryFailed(token: TokenId)  // fetching or validating this token's entry failed
    | SupplyNotInt             // a `null` total_supply fails the `int` field

  /** The URI `f"{base}/{token_id}"` of one token of a template. */
  function TokenUri(base: string, token: nat): string
  {
    base + "/" + NatStr(token)
  }

  /** The dict a template expands to: `range(n)` is empty for `n <= 0`. */
  function TemplateEntries(base: string, n: int): (r: TokenMap<string>)
    ensures |r| == if n > 0 then n else 0
    ensures forall i :: 0 <= i < |r| ==> r[i] == (i, TokenUri(base, i))
    ensures DistinctKeys(r)
    ensures forall k :: k in Keys(r) <==> 0 <= k < n
    ensures forall k :: 0 <= k < n ==> Lookup(r, k) == Some(TokenUri(base, k))
  {
    if n <= 0 then []
    else
      var r := seq(n, i requires 0 <= i < n => (i, TokenUri(base, i)));
      CountingKeys(r);
      r
  }

  /** Applies `load` to each value in order, stopping at the first failure,
      which is reported by its key. */
  function LoadAll<E>(entries: TokenMap<E>, load: E -> Option<Metadata>): (r: Result<TokenMap<Metadata>, TokenId>)
    ensures r.Ok? <==> forall i :: 0 <= i < |entries| ==> load(entries[i].1).Some?
    ensures r.Ok? ==> |r.value| == |entries|
    ensures r.Ok? ==> forall i :: 0 <= i < |entries| ==> r.value[i] == (entries[i].0, load(entries[i].1).value)
    ensures r.Err? ==> exists k :: 0 <= k < |entries| && entries[k].0 == r.error && load(entries[k].1).None?
                                   && forall j :: 0 <= j < k ==> load(entries[j].1).Some?
  {
    if |entries| == 0 then Ok([])
    else
      var (key, raw) := entries[0];
      match load(raw)
      case None => Err(key)
      case Some(m) =>
        match LoadAll(entries[1..], load)
        case Err(e) =>
          var k :| 0 <= k < |entries[1..]| && entries[1..][k].0 == e && load(entries[1..][k].1).None?
                   && forall j :: 0 <= j < k ==> load(entries[1..][j].1).Some?;
          assert forall j :: 0 <= j < k + 1 ==> load(entries[j].1).Some? by {
            forall j | 0 <= j < k + 1 ensures load(entries[j].1).Some? {
              if j > 0 { assert entries[j] == entries[1..][j - 1]; }
            }
          }
          assert entries[k + 1] == entries[1..][k];
          Err(e)
        case Ok(rest) =>
          assert forall i :: 1 <= i < |entries| ==> entries[i] == entries[1..][i - 1];
          Ok([(key, m)] + rest)
  }

  /** How one dict value is turned into metadata: strings are fetched then
      parsed, anything else is parsed as it stands. */
  function LoadEntry<J>(fetch: string -> Option<J>, parse: J -> Option<Metadata>, e: RawEntry<J>): Option<Metadata>
  {
    match e
    case Uri(u) =>
      (match fetch(u) case None => None case Some(j) => parse(j))
    case Inline(j) => parse(j)
  }

  /** An inline value is parsed without consulting `fetch`; a URI entry
      depends on nothing but what its own URI serves, and fails when that
      fetch fails. */
  lemma LoadEntryUses<J>(fetch1: string -> Option<J>, fetch2: string -> Option<J>, parse: J -> Option<Metadata>, e: RawEntry<J>)
    ensures e.Inline? ==> LoadEntry(fetch1, parse, e) == parse(e.json) == LoadEntry(fetch2, parse, e)
    ensures e.Uri? && fetch1(e.uri) == fetch2(e.uri) ==> LoadEntry(fetch1, parse, e) == LoadEntry(fetch2, parse, e)
    ensures e.Uri? && fetch1(e.uri).None? ==> LoadEntry(fetch1, parse, e).None?
  {
  }

  /** The metadata source as a per-token dict, or why it is not one. */
  function Normalize<J>(raw: RawCollection<J>): (r: Result<TokenMap<RawEntry<J>>, ExpandError>)
    ensures raw.metadata.Missing? ==> r == Err(MissingMetadata)
    ensures raw.metadata.Unrecognized? ==> r == Err(CannotExpand)
    ensures raw.metadata.Entries? ==> r == Ok(raw.metadata.entries)
    ensures raw.metadata.Template? ==>
      (r.Ok? <==> raw.totalSupply.Given? && raw.totalSupply.value != 0)
    ensures raw.metadata.Template? && r.Ok? ==>
      |r.value| == (if raw.totalSupply.value > 0 then raw.totalSupply.value else 0)
      && forall i :: 0 <= i < |r.value| ==> r.value[i] == (i, Uri(TokenUri(raw.metadata.base, i)))
    ensures r.Err? ==> r.error == MissingMetadata || r.error == CannotExpand
  {
    match raw.metadata
    case Missing => Err(MissingMetadata)
    case Template(base) =>
      if raw.totalSupply.Given? && raw.totalSupply.value != 0
      then
        var uris := TemplateEntries(base, raw.totalSupply.value);
        Ok(seq(|uris|, i requires 0 <= i < |uris| => (uris[i].0, Uri(uris[i].1))))
      else Err(CannotExpand)
    case Entries(es) => Ok(es)
    case Unrecognized => Err(CannotExpand)
  }

  /** `expand_metadata`: normalise the metadata source, resolve every entry, and
      back-fill `total_supply` with the entry count only when it was absent.
      A `null` supply is left in place, and the `int` field then rejects it. */
  function Expand<J>(raw: RawCollection<J>, fetch: string -> Option<J>, parse: J -> Option<Metadata>)
    : (r: Result<CollectionInfo, ExpandError>)
    ensures Normalize(raw).Err? ==> r == Err(Normalize(raw).error)
    ensures Normalize(raw).Ok? ==> var es := Normalize(raw).value;
      && (r.Ok? <==> !raw.totalSupply.Null? && forall i :: 0 <= i < |es| ==> LoadEntry(fetch, parse, es[i].1).Some?)
      && (r == Err(SupplyNotInt) <==>
            raw.totalSupply.Null? && forall i :: 0 <= i < |es| ==> LoadEntry(fetch, parse, es[i].1).Some?)
      && (r.Ok? ==>
            && |r.value.metadata| == |es|
            && (forall i :: 0 <= i < |es| ==>
                  r.value.metadata[i] == (es[i].0, LoadEntry(fetch, parse, es[i].1).value))
            && r.value.totalSupply == (if raw.totalSupply.Given? then raw.totalSupply.value else |es|))
      && (r.Err? && r.error != SupplyNotInt ==>
            exists k :: 0 <= k < |es| && r.error == EntryFailed(es[k].0)
                        && LoadEntry(fetch, parse, es[k].1).None?
                        && forall j :: 0 <= j < k ==> LoadEntry(fetch, parse, es[j].1).Some?)
    ensures r.Ok? ==> r.value.chainId == raw.chainId && r.value.address == raw.address
                      && r.value.name == raw.name && r.value.symbol == raw.symbol
                      && r.value.collectionUri == raw.collectionUri
  {
    match Normalize(raw)
    case Err(e) => Err(e)
    case Ok(es) =>
      match LoadAll(es, e => LoadEntry(fetch, parse, e))
      case Err(k) => Err(EntryFailed(k))
      case Ok(metadata) =>
        match raw.totalSupply
        case Null => Err(SupplyNotInt)
        case Absent =>
          Ok(CollectionInfo(raw.chainId, raw.address, raw.name, raw.symbol, raw.collectionUri, |metadata|, metadata))
        case Given(n) =>
          Ok(CollectionInfo(raw.chainId, raw.address, raw.name, raw.symbol, raw.collectionUri, n, metadata))
  }

  /** A template with a positive supply `n` resolves to keys `0..n-1` in
      order, entry `i` being the parse of what `base/i` serves; the supply is
      kept as given. */
  lemma TemplateExpansion<J>(raw: RawCollection<J>, fetch: string -> Option<J>, parse: J -> Option<Metadata>)
    requires raw.metadata.Template? && raw.totalSupply.Given? && raw.totalSupply.value > 0
    requires Expand(raw, fetch, parse).Ok?
    ensures var c := Expand(raw, fetch, parse).value; var n := raw.totalSupply.value;
      && (forall k :: k in Keys(c.metadata) <==> 0 <= k < n)
      && |c.metadata| == n
      && c.totalSupply == n
      && forall i :: 0 <= i < n ==>
           c.metadata[i].0 == i
           && fetch(TokenUri(raw.metadata.base, i)).Some?
           && Some(c.metadata[i].1) == parse(fetch(TokenUri(raw.metadata.base, i)).value)
  {
    var c := Expand(raw, fetch, parse).value;
    var n := raw.totalSupply.value;
    forall i | 0 <= i < n
      ensures c.metadata[i].0 == i
      ensures fetch(TokenUri(raw.metadata.base, i)).Some?
    {
      assert Normalize(raw).value[i] == (i, Uri(TokenUri(raw.metadata.base, i)));
      assert LoadEntry(fetch, parse, Normalize(raw).value[i].1).Some?;
    }
    forall k | k in Keys(c.metadata) ensures 0 <= k < n {
      var i :| 0 <= i < |c.metadata| && c.metadata[i].0 == k;
    }
    forall k | 0 <= k < n ensures k in Keys(c.metadata) {
      assert c.metadata[k].0 == k;
    }
  }

  /** A template with no supply, a `null` one, or a supply of 0, cannot be expanded; nor can
      a source that is neither a string nor a dict. */
  lemma TemplateNeedsSupply<J>(raw: RawCollection<J>, fetch: string -> Option<J>, parse: J -> Option<Metadata>)
    requires raw.metadata.Template? || raw.metadata.Unrecognized?
    requires raw.metadata.Template? ==> !raw.totalSupply.Given? || raw.totalSupply.value == 0
    ensures Expand(raw, fetch, parse) == Err(CannotExpand)
  {
  }

  /** A dict source keeps its key set, and its order, through resolution;
      `total_supply` is back-filled only when it was absent. */
  lemma DictKeysKept<J>(raw: RawCollection<J>, fetch: string -> Option<J>, parse: J -> Option<Metadata>)
    requires raw.metadata.Entries? && Expand(raw, fetch, parse).Ok?
    ensures var c := Expand(raw, fetch, parse).value; var es := raw.metadata.entries;
      && Keys(c.metadata) == Keys(es)
      && (DistinctKeys(es) ==> DistinctKeys(c.metadata))
      && raw.totalSupply != Null
      && (raw.totalSupply.Absent? ==> c.totalSupply == |c.metadata|)
      && (raw.totalSupply.Given? ==> c.totalSupply == raw.totalSupply.value)
  {
    var c := Expand(raw, fetch, parse).value;
    var es := raw.metadata.entries;
    assert forall i :: 0 <= i < |es| ==> c.metadata[i].0 == es[i].0;
  }

  /** An explicit `null` supply is not back-filled: the dict that resolves
      with its entry count as supply when the key is absent is rejected when
      the key holds `null`. */
  lemma NullSupplyNotBackFilled<J>(raw: RawCollection<J>, fetch: string -> Option<J>, parse: J -> Option<Metadata>)
    requires raw.metadata.Entries? && raw.totalSupply.Absent? && Expand(raw, fetch, parse).Ok?
    ensures Expand(raw, fetch, parse).value.totalSupply == |raw.metadata.entries|
    ensures Expand(raw.(totalSupply := Null), fetch, parse) == Err(SupplyNotInt)
  {
  }

  /** Resolving a dict of inline records that `parse` reproduces gives back
      exactly those records: resolution of a resolved mapping is the identity. */
  lemma ResolvedIsFixedPoint<J>(resolved: TokenMap<Metadata>, supply: Option<int>,
                                render: Metadata -> J, fetch: string -> Option<J>, parse: J -> Option<Metadata>)
    requires forall m :: parse(render(m)) == Some(m)
    ensures var raw := RawCollection(1, "", "", "", None, if supply.Some? then Given(supply.value) else Absent,
                                     Entries(seq(|resolved|, i requires 0 <= i < |resolved| =>
                                       (resolved[i].0, Inline(render(resolved[i].1))))));
      && Expand(raw, fetch, parse).Ok?
      && Expand(raw, fetch, parse).value.metadata == resolved
  {
    var es := seq(|resolved|, i requires 0 <= i < |resolved| => (resolved[i].0, Inline(render(resolved[i].1))));
    var raw := RawCollection(1, "", "", "", None, if supply.Some? then Given(supply.value) else Absent, Entries(es));
    forall i | 0 <= i < |es| ensures LoadEntry(fetch, parse, es[i].1) == Some(resolved[i].1) {
      assert parse(render(resolved[i].1)) == Some(resolved[i].1);
    }
    var c := Expand(raw, fetch, parse).value;
    assert forall i :: 0 <= i < |es| ==> c.metadata[i] == resolved[i];
  }

  /** Failure is all or nothing: when token `j` is the first of a template
      whose entry fails, the whole resolution fails naming token `j`. */
  lemma FailureNamesFirstToken<J>(raw: RawCollection<J>, fetch: string -> Option<J>, parse: J -> Option<Metadata>, j: nat)
    requires raw.metadata.Template? && raw.totalSupply.Given? && j < raw.totalSupply.value
    requires LoadEntry(fetch, parse, Uri(TokenUri(raw.metadata.base, j))).None?
    requires forall i: nat :: i < j ==> LoadEntry(fetch, parse, Uri(TokenUri(raw.metadata.base, i))).Some?
    ensures Expand(raw, fetch, parse) == Err(EntryFailed(j))
  {
    var es := Normalize(raw).value;
    assert es[j] == (j, Uri(TokenUri(raw.metadata.base, j)));
    var r := Expand(raw, fetch, parse);
    var k :| 0 <= k < |es| && r.error == EntryFailed(es[k].0)
             && LoadEntry(fetch, parse, es[k].1).None?
             && forall i :: 0 <= i < k ==> LoadEntry(fetch, parse, es[i].1).Some?;
    assert es[k] == (k, Uri(TokenUri(raw.metadata.base, k)));
    assert k == j;
  }

  /** Every non-negative number up to `m` prints in at most as many digits as `m`. */
  lemma AllFit(m: nat)
    ensures forall t: nat :: t <= m ==> |NatStr(t)| <= |NatStr(m)|
  {
    forall t: nat | t <= m ensures |NatStr(t)| <= |NatStr(m)| {
      NatStrLengthMonotone(t, m);
    }
  }

  /** Width of the zero-padded names, the digits of `str(total_supply - 1)`:
      wide enough for every id below the supply. */
  function Width(totalSupply: int): (w: nat)
    ensures w >= 1
    ensures forall t: nat :: t < totalSupply ==> |NatStr(t)| <= w
    ensures totalSupply >= 1 ==> w == |NatStr(totalSupply - 1)|
    ensures totalSupply < 1 ==> w == 1 + |NatStr(1 - totalSupply)|
  {
    if totalSupply >= 1 then
      AllFit(totalSupply - 1);
      |IntStr(totalSupply - 1)|
    else |IntStr(totalSupply - 1)|
  }

  /** The zero-padded `str(token_id)` that names a token's file. For a
      non-negative id it is digits only, as long as the width or as `str(id)`
      whichever is longer, and the digits still denote the id. */
  function Stem(totalSupply: int, token: TokenId): (r: string)
    ensures token >= 0 ==>
      && |r| == (if Width(totalSupply) > |NatStr(token)| then Width(totalSupply) else |NatStr(token)|)
      && AllDigits(r)
      && DigitsValue(r) == token
  {
    var r := ZFill(IntStr(token), Width(totalSupply));
    if token >= 0 then
      assert IntStr(token) == NatStr(token);
      ZFillDigits(NatStr(token), Width(totalSupply));
      r
    else r
  }

  /** The file name `unpack_metadata_to_folder` writes a token's metadata to.
      For a non-negative id, dropping ".json" leaves digits that denote it. */
  function FileName(totalSupply: int, token: TokenId): (r: string)
    ensures |r| > 5 && r[|r| - 5..] == ".json"
    ensures token >= 0 ==> AllDigits(r[..|r| - 5]) && DigitsValue(r[..|r| - 5]) == token
  {
    var r := Stem(totalSupply, token) + ".json";
    assert r[..|r| - 5] == Stem(totalSupply, token);
    assert r[|r| - 5..] == ".json";
    r
  }

  /** A dict source may carry a supply of 0; `str(-1)` then sets the width to
      2, so token 5 is written to "05.json". */
  lemma ZeroSupplyFileName()
    ensures FileName(0, 5) == "05.json"
  {
    assert NatStr(1) == "1";
    assert Width(0) == 2;
    assert IntStr(5) == NatStr(5) == "5";
    assert ZFill("5", 2) == Zeros(1) + "5" == "05";
  }

  /** Distinct non-negative tokens never share a file. */
  lemma FileNamesDistinct(totalSupply: int, a: nat, b: nat)
    requires a != b
    ensures FileName(totalSupply, a) != FileName(totalSupply, b)
  {
  }

  /** Tokens `0..total_supply-1` get names of one length. */
  lemma FileNamesSameLength(totalSupply: int, a: nat, b: nat)
    requires a < totalSupply && b < totalSupply
    ensures |FileName(totalSupply, a)| == |FileName(totalSupply, b)|
  {
  }

  /** For tokens `0..total_supply-1` the names' string order is the token
      order. */
  lemma FileNamesSorted(totalSupply: int, a: nat, b: nat)
    requires a < b < totalSupply
    ensures Below(FileName(totalSupply, a), FileName(totalSupply, b))
  {
    var sa, sb := Stem(totalSupply, a), Stem(totalSupply, b);
    assert |sa| == Width(totalSupply) && |sb| == Width(totalSupply);
    DigitsOrder(sa, sb);
    BelowExtend(sa, sb, ".json", ".json");
  }

  /** The files `unpack_metadata_to_folder` writes, in the mapping's order,
      each token's name paired with its metadata. With distinct non-negative
      ids no file overwrites another, and each name gives back its id. */
  function Unpack(c: CollectionInfo): (files: seq<(string, Metadata)>)
    ensures |files| == |c.metadata|
    ensures forall i :: 0 <= i < |files| ==>
      files[i].1 == c.metadata[i].1 && |files[i].0| > 5
      && (c.metadata[i].0 >= 0 ==>
            AllDigits(files[i].0[..|files[i].0| - 5]) && DigitsValue(files[i].0[..|files[i].0| - 5]) == c.metadata[i].0)
    ensures DistinctKeys(c.metadata) && (forall i :: 0 <= i < |c.metadata| ==> c.metadata[i].0 >= 0) ==>
      forall i, j :: 0 <= i < j < |files| ==> files[i].0 != files[j].0
  {
    var files := seq(|c.metadata|, i requires 0 <= i < |c.metadata| => (FileName(c.totalSupply, c.metadata[i].0), c.metadata[i].1));
    if DistinctKeys(c.metadata) && (forall i :: 0 <= i < |c.metadata| ==> c.metadata[i].0 >= 0) then
      assert forall i, j :: 0 <= i < j < |files| ==> files[i].0 != files[j].0 by {
        forall i, j | 0 <= i < j < |files| ensures files[i].0 != files[j].0 {
          FileNamesDistinct(c.totalSupply, c.metadata[i].0, c.metadata[j].0);
        }
      }
      files
    else files
  }
}

=== FILE: text.dfy ===
/** Python string operations the modelled code relies on: the `in` substring
    test, ordering of `str` values (as used by `sorted`), and `str.lower`. */
module Text {

  /** Python's `w in s` for two strings. */
  predicate Contains(s: string, w: string)
  {
    exists i | 0 <= i <= |s| :: OccursAt(s, w, i)
  }

  /** `w` is the slice of `s` that starts at index `i`. */
  predicate OccursAt(s: string, w: string, i: int)
  {
    0 <= i <= |s| - |w| && s[i..i + |w|] == w
  }

  /** A string lacking some character of `w` does not contain `w`. */
  lemma MissingCharNotContained(s: string, w: string, k: nat)
    requires k < |w| && w[k] !in s
    ensures !Contains(s, w)
  {
    if Contains(s, w) {
      ContainsChar(s, w, k);
    }
  }

  /** A string that contains `w` contains each character of `w`. */
  lemma ContainsChar(s: string, w: string, k: nat)
    requires Contains(s, w)
    requires k < |w|
    ensures w[k] in s
  {
    var i :| 0 <= i <= |s| && OccursAt(s, w, i);
    assert s[i..i + |w|] == w;
    assert s[i + k] == s[i..i + |w|][k];
  }

  /** Python's `a < b` on strings: lexicographic by code point, a proper
      prefix being smaller. */
  predicate Below(a: string, b: string)
  {
    if |a| == 0 then |b| > 0
    else if |b| == 0 then false
    else if a[0] < b[0] then true
    else if a[0] == b[0] then Below(a[1..], b[1..])
    else false
  }

  lemma {:induction false} BelowIrreflexive(a: string)
    ensures !Below(a, a)
  {
    if |a| > 0 {
      BelowIrreflexive(a[1..]);
    }
  }

  lemma {:induction false} BelowTransitive(a: string, b: string, c: string)
    requires Below(a, b) && Below(b, c)
    ensures Below(a, c)
  {
    if |a| > 0 && |b| > 0 && |c| > 0 && a[0] == b[0] && b[0] == c[0] {
      BelowTransitive(a[1..], b[1..], c[1..]);
    }
  }

  /** Distinct strings are always ordered one way or the other. */
  lemma {:induction false} BelowTotal(a: string, b: string)
    requires a != b
    ensures Below(a, b) || Below(b, a)
  {
    if |a| > 0 && |b| > 0 && a[0] == b[0] {
      assert a == [a[0]] + a[1..] && b == [b[0]] + b[1..];
      BelowTotal(a[1..], b[1..]);
    }
  }

  /** For strings of one length, extending both by a character compares the
      stems first and the new characters only when the stems agree. */
  lemma {:induction false} BelowSnoc(a: string, b: string, x: char, y: char)
    requires |a| == |b|
    ensures Below(a + [x], b + [y]) <==> Below(a, b) || (a == b && x < y)
  {
    if |a| == 0 {
      assert a + [x] == [x] && b + [y] == [y];
    } else {
      assert (a + [x])[1..] == a[1..] + [x];
      assert (b + [y])[1..] == b[1..] + [y];
      BelowSnoc(a[1..], b[1..], x, y);
      if a[0] == b[0] {
        assert a == [a[0]] + a[1..] && b == [b[0]] + b[1..];
      }
    }
  }

  /** Once two strings of one length are ordered, any suffixes keep that order. */
  lemma {:induction false} BelowExtend(a: string, b: string, s: string, t: string)
    requires |a| == |b| && Below(a, b)
    ensures Below(a + s, b + t)
  {
    assert (a + s)[0] == a[0] && (b + t)[0] == b[0];
    if a[0] == b[0] {
      assert (a + s)[1..] == a[1..] + s;
      assert (b + t)[1..] == b[1..] + t;
      BelowExtend(a[1..], b[1..], s, t);
    }
  }

  /** Strictly ascending, hence also free of repeats. */
  predicate Ascending(s: seq<string>)
  {
    forall i, j :: 0 <= i < j < |s| ==> Below(s[i], s[j])
  }

  /** Places `x` into an ascending sequence that does not hold it yet. */
  function Insert(x: string, s: seq<string>): (r: seq<string>)
    requires Ascending(s)
    requires x !in s
    ensures Ascending(r)
    ensures forall y :: y in r <==> y == x || y in s
    ensures |r| == |s| + 1
  {
    if |s| == 0 then [x]
    else if Below(x, s[0]) then
      assert forall j :: 0 <= j < |s| ==> Below(x, s[j]) by {
        forall j | 0 <= j < |s| ensures Below(x, s[j]) {
          if j > 0 { BelowTransitive(x, s[0], s[j]); }
        }
      }
      [x] + s
    else
      BelowTotal(x, s[0]);
      assert Ascending(s[1..]) by {
        forall i, j | 0 <= i < j < |s[1..]| ensures Below(s[1..][i], s[1..][j]) {
          assert s[1..][i] == s[i + 1] && s[1..][j] == s[j + 1];
        }
      }
      var rest := Insert(x, s[1..]);
      assert forall y :: y in rest ==> Below(s[0], y) by {
        forall y | y in rest ensures Below(s[0], y) {
          if y != x {
            var j :| 0 <= j < |s[1..]| && s[1..][j] == y;
            assert s[j + 1] == y;
          }
        }
      }
      [s[0]] + rest
  }

  /** ASCII case folding standing in for Python's `str.lower`. */
  function LowerChar(c: char): char
  {
    if 'A' <= c <= 'Z' then (c as int - 'A' as int + 'a' as int) as char else c
  }

  /** `s.lower()`: same length, no upper-case ASCII letter left, every other
      character kept. */
  function Lower(s: string): (r: string)
    ensures |r| == |s|
    ensures forall i :: 0 <= i < |s| ==> r[i] == LowerChar(s[i])
    ensures forall i :: 0 <= i < |r| ==> !('A' <= r[i] <= 'Z')
    ensures forall i :: 0 <= i < |s| && !('A' <= s[i] <= 'Z') ==> r[i] == s[i]
  {
    seq(|s|, i requires 0 <= i < |s| => LowerChar(s[i]))
  }
}

=== FILE: wrappers.dfy ===
/** Optional values and all-or-nothing results, standing in for Python's `None`
    and for the exceptions the modelled code raises. */
module Wrappers {

  datatype Option<+T> = None | Some(value: T)

  /** `Err` carries which of the Python code's exceptions would have been raised. */
  datatype Result<+T, +E> = Ok(value: T) | Err(error: E)
}
